=== FILE: README.md ===
# Renovation quote intake: a Dafny model

This project models the core of a small Next.js application for an interior
renovation business. The parts modelled are:

- a public quote form (`pages/index.tsx`);
- a submission endpoint (`pages/api/submit.ts`);
- an admin login endpoint (`pages/api/set-admin-cookie.ts`);
- an admin page listing the stored leads (`pages/records.tsx`).

What the application does:

- A visitor types a demo password to unlock the form. They fill in contact and
  project fields, and tick add-ons: carpentry, system furniture, electrical,
  painting, flooring.
- The form shows a live estimate while the visitor types. The estimate is a
  base price, plus the area in ping times a per-ping rate, plus a per-ping
  surcharge for each ticked add-on, rounded.
- The endpoint recomputes the estimate from the submitted area and add-ons, and
  stores the lead with that figure.
- An administrator logs in with a secret and receives an `admin_pwd` cookie.
  With it, they page through the leads 20 at a time, search the shown page, and
  export it as CSV.

The model is organised as follows:

- JavaScript values are modelled explicitly: `undefined`, `null`, booleans,
  numbers (NaN or a finite real), and strings. This includes truthiness,
  `Number(x)`, `x || d`, `Math.round`, `Math.ceil`, `Math.max`, `Math.min`,
  and the effect of a JSON round trip on an object.
- Request bodies, form state and stored rows are `map<string, Value>`. In
  `{ ...a, k: v }` the later key wins, which is a map update.
- The store (the database client) is not modelled. Its answer to an insert,
  to the count and to the range read are parameters of the handlers.
- `encodeURIComponent` is implemented as UTF-8 percent-encoding, and so is the
  decoding the records page applies to cookie values. Their round trip is
  proved, so the lemma "the issued cookie opens the records page" rests on no
  assumption.
- The CSV export comes with a reader for the quoting rules of RFC 4180,
  section 2, rules 5 to 7, using LF as the line break. Every export is proved to
  read back as the titles followed by the cells of every shown lead.

What the proofs show, in the system's own terms:

- The preview the form shows equals the figure the endpoint stores and returns,
  for every form. This assumes the browser bundle and the server read the same
  environment. `NEXT_PUBLIC_*` values are fixed into the client at build time,
  so a deployment whose server settings differ from its build settings breaks
  the equality (`IntakeForm.PreviewMatchesServer` takes one `env` for both).
- A client-sent estimate has no effect.
- The estimate is non-negative under non-negative rates. It is monotone in the
  area and in the set of ticked add-ons. A non-positive or missing area prices
  at the base.
- Configured rates never resolve to 0, because `0`, `""` and non-numbers fall
  back to the defaults.
- Login answers 405, 400, 200 or 401. Only a non-empty string equal to the
  configured secret gets the cookie.
- The cookie string is exact: `; Secure` appears exactly in production and no
  segment is empty.
- The records gate compares the cookie with the secret using `===`. The page is
  therefore open to a request with no cookie when no secret is configured
  (`Records.Admitted`).
- Pages of 20 tile the table with no gaps and no overlaps, and the pager links
  stay within range.
- A search keeps exactly the matching rows, in order.

## Model

| member | source | states |
|---|---|---|
| `Js.Round` | pages/api/submit.ts:39 | `Math.round(t)` is the integer within half of `t`, halves rounding up |
| `Js.RoundMonotone` | pages/api/submit.ts:39 | rounding never reverses the order of two totals |
| `Js.Ceil` | pages/records.tsx:88 | `Math.ceil(x)` is the least integer not below `x` |
| `Js.Max` | pages/records.tsx:245 | `Math.max` is NaN iff an argument is, otherwise the larger argument |
| `Js.Min` | pages/records.tsx:248 | `Math.min` is NaN iff an argument is, otherwise the smaller argument |
| `Js.JsonRoundTrip` | pages/index.tsx:112 | `JSON.stringify` then parsing keeps exactly the properties not holding `undefined`, each with its value, except that NaN becomes `null` |
| `Js.JsonRoundTripPreservesReads` | pages/index.tsx:112 | sending the payload as JSON changes no property's truthiness, nor the value of a truthy one |
| `Js.ParseNumberBlank` | pages/index.tsx:53 | `Number` of an empty or blank string is 0 |
| `Js.ParseNumberNonNumeric` | pages/api/submit.ts:22 | `Number` of text that starts with no whitespace, sign, digit or point is NaN, whatever follows |
| `Js.ParseNumberSign` | pages/api/submit.ts:22 | in `Number(s)` a leading '-' negates the unsigned literal after it, and a leading '+' changes nothing |
| `Js.ParseNumberOfInt` | pages/records.tsx:41 | `Number` of a decimal integer gives that integer |
| `Text.Trim` | pages/records.tsx:76 | `trim()` yields text that starts and ends with non-whitespace, and is empty iff the query was blank |
| `Text.TrimIsInfix` | pages/records.tsx:76 | `trim()` removes only whitespace at the two ends: the result is an infix of the query with whitespace only before and after it |
| `Text.ToLower` | pages/records.tsx:76 | `toLowerCase()` maps each character, keeping the length |
| `Text.NatToStringValue` | pages/records.tsx:130 | the decimal text of an estimate spells that number |
| `Lead.WithCoercedArea` | pages/api/submit.ts:48-51 | the payload copies every property of the body and replaces only the area |
| `Lead.CoerceTwiceDiffers` | pages/index.tsx:104 | coercing is not idempotent: the area "abc" leaves the form as NaN and, coerced again at pages/api/submit.ts:50, becomes `undefined` |
| `Pricing.CoercionKeepsClamp` | pages/api/submit.ts:50 | for every area value, coercing it once (the form) or twice (the form, then the endpoint) leaves the priced, clamped area unchanged |
| `Pricing.ResolveRate` | pages/api/submit.ts:22-28 | a rate is the configured number whenever `Number(setting)` is truthy, and the default exactly when it is not; it is never 0 |
| `Pricing.ResolveRates` | pages/api/submit.ts:21-29 | each rate is resolved from its own variable with its own default: `NEXT_PUBLIC_QUOTE_BASE_PRICE` (80000), `…_PRICE_PER_PING` (20000), `…_CARPENTRY_PER_PING` (6000), `…_SYSTEM_PER_PING` (8000), `…_ELECTRICAL_PER_PING` (3000), `…_PAINTING_PER_PING` (1500), `…_FLOORING_PER_PING` (3500); all seven are non-zero |
| `Pricing.UnsetRatesAreDefaults` | pages/api/submit.ts:21-29 | with no effective override the rates are 80000, 20000, 6000, 8000, 3000, 1500, 3500 |
| `Pricing.IneffectiveOverrides` | pages/api/submit.ts:22-28 | an unset setting, every blank one, every string of zeros ("0", "00", …) and every one starting with a character other than whitespace, a sign, a digit or '.' falls back to the default |
| `Pricing.EffectiveOverride` | pages/api/submit.ts:22 | a non-zero integer setting replaces the default |
| `Pricing.ClampArea` | pages/api/submit.ts:32 | the priced area is never negative: `Number(a)` when positive, else 0 |
| `Pricing.TotalIsQuote` | pages/api/submit.ts:33-38 | the running total equals base + area × (per-ping rate + sum of ticked add-on rates) |
| `Pricing.Estimate` | pages/api/submit.ts:31-40 | `calcEstimate` gives the closed-form quote base + area × (per-ping rate + ticked add-on rates) of the clamped area, rounded |
| `Pricing.EstimateCongruent` | pages/api/submit.ts:31-40 | the estimate depends only on the clamped area and which add-ons are ticked |
| `Pricing.NonPositiveAreaPricesBase` | pages/api/submit.ts:32-33 | a missing, zero, negative or non-numeric area prices at `round(BASE)` |
| `Pricing.DefaultRateExamples` | pages/api/submit.ts:31-40 | with default rates, 10 ping and no add-ons gives 280000; 5 ping with carpentry and painting gives 217500 |
| `Pricing.SurchargeRateNonNegative` | pages/api/submit.ts:34-38 | with non-negative add-on rates the surcharge per ping is non-negative |
| `Pricing.SurchargeRateMonotone` | pages/api/submit.ts:34-38 | with non-negative add-on rates, ticking more add-ons never lowers the surcharge per ping |
| `Pricing.QuoteMonotoneInArea` | pages/api/submit.ts:33-38 | a larger area never gives a lower unrounded total |
| `Pricing.QuoteNonNegative` | pages/api/submit.ts:32-38 | with a non-negative area and non-negative rates the unrounded total is never negative |
| `Pricing.EstimateNonNegative` | pages/api/submit.ts:31-40 | with non-negative rates the estimate is never negative |
| `Pricing.EstimateMonotoneInArea` | pages/api/submit.ts:31-40 | with non-negative per-ping and add-on rates, whatever the base price, a larger clamped area never gives a lower estimate |
| `Pricing.EstimateMonotoneInAddOns` | pages/api/submit.ts:34-38 | with non-negative add-on rates, ticking more add-ons never gives a lower estimate, whatever the base and per-ping rates |
| `Submit.Handle` | pages/api/submit.ts:42-68 | non-POST gives 405 and stores nothing. A POST offers the body with the area coerced and the server estimate added. It answers 200 with that estimate and no error iff the store accepts, and otherwise 500 with `err.message ?? "Server error"` |
| `Submit.ServerEstimateMatchesBody` | pages/api/submit.ts:47-53 | coercing the area and re-reading it with `|| 0` prices the same as the raw body |
| `Submit.OfferedEstimate` | pages/api/submit.ts:53-57 | every POST offers a row to the store whose estimate is the one priced from the raw body |
| `Submit.AcceptedReply` | pages/api/submit.ts:53-62 | when the store accepts, a POST is answered 200 with that same estimate |
| `Submit.ClientEstimateIgnored` | pages/api/submit.ts:56-58 | two bodies differing only in `quote_estimate` give the same row and the same reply |
| `Submit.StoredRowsAgree` | pages/api/submit.ts:56-58 | the stored row does not depend on the body's own `quote_estimate` |
| `Submit.SubmitExample` | pages/api/submit.ts:42-62 | a POST with area "10" and a client estimate of 1 is answered 200 with 280000 |
| `IntakeForm.InitialFormFields` | pages/index.tsx:22-36 | the initial form has exactly the 13 fields: eight texts and the five add-on checkboxes |
| `IntakeForm.InitialFormShape` | pages/index.tsx:22-36 | in the initial form every add-on is off, the source is "官網" and every other text is empty |
| `IntakeForm.InitialPreview` | pages/index.tsx:52-61 | the initial form, with its empty area, previews the rounded base price |
| `IntakeForm.OnChange` | pages/index.tsx:90-96 | a change sets exactly the named field: a checkbox to its checked state, any other input to its text |
| `IntakeForm.TickingNeverLowersPreview` | pages/index.tsx:88-96 | with non-negative add-on rates, ticking an add-on never lowers the live preview |
| `IntakeForm.SentAreaClampsAlike` | pages/index.tsx:102-112 | the area the endpoint receives clamps to the same value the preview used |
| `IntakeForm.SentFlagAlike` | pages/index.tsx:102-112 | every add-on reaches the endpoint as ticked or unticked as in the form |
| `IntakeForm.PreviewMatchesServer` | pages/index.tsx:52-61 | for every form, the stored and returned estimate equals the client preview |
| `IntakeForm.NameRequiredOnlyInBrowser` | pages/index.tsx:151 | the initial form cannot be submitted. A filled name is sent unchanged. The endpoint itself accepts a body without a name |
| `IntakeForm.NameSentUnchanged` | pages/index.tsx:102-112 | a filled-in name reaches the endpoint exactly as typed |
| `IntakeForm.AfterReply` | pages/index.tsx:114-123 | success iff the reply is delivered with `ok`. Success resets the form to `INITIAL_FORM` and shows `out.estimate` when non-zero, else the preview. Failure keeps the form and shows `發生錯誤：` followed by the thrown message, the reply's non-empty error, or `提交失敗` |
| `IntakeForm.SuccessfulSubmission` | pages/index.tsx:115-117 | an accepted submission resets the form and shows the previewed amount |
| `IntakeForm.UnlockPassword` | pages/index.tsx:87 | the unlock password is `NEXT_PUBLIC_DEMO_PWD` when set and non-empty, else "demo123" |
| `IntakeForm.DefaultDemoPassword` | pages/index.tsx:140 | with nothing configured, exactly "demo123" unlocks the form |
| `UriComponent.Encode` | pages/api/set-admin-cookie.ts:10 | an encoded value holds only unreserved characters and '%' |
| `UriComponent.Decode` | pages/records.tsx:33 | the cookie value the page reads is the `decodeURIComponent` of the sent text: text without '%' comes back unchanged, and decoding never lengthens |
| `UriComponent.DecodeEncode` | pages/api/set-admin-cookie.ts:10 | decoding the encoded password gives the password back, for every string |
| `AdminCookie.NonEmpty` | pages/api/set-admin-cookie.ts:17 | `filter(Boolean)` keeps exactly the non-empty parts, in order |
| `AdminCookie.CookieParts` | pages/api/set-admin-cookie.ts:9-17 | no cookie segment is empty |
| `AdminCookie.CookieHeaderExact` | pages/api/set-admin-cookie.ts:9-19 | the header is `admin_pwd=<encoded>; Path=/; HttpOnly; SameSite=Lax; Max-Age=604800`, plus `; Secure` exactly in production |
| `AdminCookie.Login` | pages/api/set-admin-cookie.ts:3-24 | non-POST gives 405 with no body and a falsy password 400. A password equal to the secret gives 200 with the cookie; any other gives 401. Only 200 sets a cookie |
| `AdminCookie.LoginAcceptsOnlyTheSecret` | pages/api/set-admin-cookie.ts:8 | a 200 needs a configured non-empty secret equal to the posted string; with no secret nothing is accepted |
| `AdminCookie.LoginStatuses` | pages/api/set-admin-cookie.ts:3-24 | the statuses are exactly 405, 400, 200 and 401 |
| `AdminCookie.EncodedIsPlain` | pages/api/set-admin-cookie.ts:10 | the encoded password holds no ';' and no '=', so it cannot break the header |
| `AdminCookie.ReturnedPairOfHeader` | pages/api/set-admin-cookie.ts:19 | the browser sends back `admin_pwd=<encoded password>` |
| `AdminCookie.ParsedCookiesOfPair` | pages/api/set-admin-cookie.ts:10 | the records page reads that pair back as the password itself |
| `AdminCookie.IssuedCookieAdmits` | pages/api/set-admin-cookie.ts:8-19 | the cookie set by a successful login passes the records page's gate |
| `Records.Admitted` | pages/records.tsx:33-36 | the page is shown iff the cookie equals the secret, or both are absent |
| `Records.RequestedPage` | pages/records.tsx:41 | a missing or empty `page` parameter means page 1 |
| `Records.RequestedPageOfInt` | pages/records.tsx:41 | `?page=n` is read as the number `n` |
| `Records.RangeArithmetic` | pages/records.tsx:42-43 | the inclusive range spans 20 rows; page 1 starts at 0; each page starts right after the previous one ends |
| `Records.NaNPageRange` | pages/records.tsx:42-43 | a non-numeric page asks for a NaN range |
| `Records.Window` | pages/records.tsx:55 | a range read returns rows `from..to` of the table in order, cut at its end |
| `Records.PagesTileTable` | pages/records.tsx:40-43 | pages 1 to n are exactly the first 20·n rows: nothing skipped, nothing repeated |
| `Records.TotalPages` | pages/records.tsx:88 | `totalPages` is at least 1 and the least page count whose pages hold `total` rows |
| `Records.PagesCoverTable` | pages/records.tsx:40-88 | the pages up to `totalPages` hold the whole table |
| `Records.PagePastLastIsEmpty` | pages/records.tsx:40-43 | a page beyond `totalPages` is empty |
| `Records.FortyFiveRows` | pages/records.tsx:40-43 | 45 leads make 3 pages of 20, 20 and 5 |
| `Records.ServerSideProps` | pages/records.tsx:31-70 | without admission, a redirect to `/?need_admin=1`. On a read error: rows [], total 0, page 1. Otherwise the data or [], `count` or 0, and the requested page, with page size 20 |
| `Records.FaithfulStorePage` | pages/records.tsx:40-69 | with a faithful store, `?page=p` shows page `p` of the table and the table's size |
| `Records.PrevPage` | pages/records.tsx:245 | the previous-page link never points below page 1 |
| `Records.NextPage` | pages/records.tsx:248 | the next-page link never points past `totalPages` |
| `Records.PagerStaysInRange` | pages/records.tsx:245-248 | from a page in range, the links go one step back or forward, stopping at the first and last page |
| `Records.Keep` | pages/records.tsx:78-85 | the filter keeps every matching row as often as it occurs and no other, in the original order |
| `Records.Search` | pages/records.tsx:75-86 | a blank query shows every row; otherwise the rows matching the trimmed, lower-cased query |
| `Records.SearchKeepsExactlyMatches` | pages/records.tsx:75-86 | after a non-blank search a row is shown iff its name, phone, email, category or source contains the query |
| `Csv.FlagCell` | pages/records.tsx:125-129 | an add-on cell is "1" iff the add-on is ticked, and empty otherwise |
| `Csv.PhoneCell` | pages/records.tsx:114 | the phone cell is empty for a missing or empty phone, otherwise a tab followed by the phone |
| `Csv.SanitizeNotes` | pages/records.tsx:132 | the notes keep their length, with each LF made a space, each ',' made '，' and every other character, a CR or a '"' included, kept |
| `Csv.SanitizedNotesLackLfAndComma` | pages/records.tsx:132 | sanitised notes hold no LF and no ',', and notes without either are unchanged |
| `Csv.HeadersAreTitles` | pages/records.tsx:93-109 | the 15 titles are the columns' titles, each at its column's position |
| `Csv.RowCells` | pages/records.tsx:116-133 | each lead gives 15 cells, and the cell at each column's position, under its title, is that column's field of the lead (`CellFor`: `?? ""` for the texts, the estimate's text); add-on cells are "1" or empty, the phone is empty or tab-led, the notes hold no LF and no ',' |
| `Csv.Escape` | pages/records.tsx:136 | every cell is written between double quotes |
| `Csv.ParseQuotedDoubled` | pages/records.tsx:136 | a cell with its quotes doubled, then closed, reads back as the cell |
| `Csv.ParseEscaped` | pages/records.tsx:136 | an escaped cell reads back as the cell, whatever commas, quotes or line breaks it holds |
| `Csv.ParsePlain` | pages/records.tsx:140 | a title without comma, quote or line break reads back unescaped |
| `Csv.HeadersArePlain` | pages/records.tsx:93-109 | none of the 15 titles needs escaping |
| `Csv.ParseLine` | pages/records.tsx:136 | a line of written cells joined by ',' reads back as those cells |
| `Csv.ParseLines` | pages/records.tsx:140 | lines joined by LF read back as their records |
| `Csv.ExportText` | pages/records.tsx:91-143 | the export starts with the BOM, and the rest reads back as the titles followed by every lead's cells, in order |
| `Csv.Export` | pages/records.tsx:112 | the export reads back as the titles followed by the cells of exactly the rows the search shows |

## Left out

- `Number(x)` on strings: exponent notation, hexadecimal, binary and octal
  literals, `Infinity`, and non-ASCII whitespace are not modelled. Such text
  reads as NaN in the model. Numbers are NaN or finite reals; infinities do
  not occur.
- Floating point: sums and products are exact reals. The rounding of
  IEEE-754 doubles before `Math.round` is not modelled.
- `toLowerCase` and `trim` are modelled on ASCII only. Unicode case folding and
  Unicode whitespace are left out.
- The database client (`lib/supabaseAdmin.ts`) is not part of this model.
  Inserts, the exact count and the range read are parameters. The ordering by
  `created_at` descending belongs to the store: a table is given in the store's
  order.
- A thrown `getAdminClient()` error in the submit endpoint takes the same 500
  path as a store error. It is covered by the `StoreError` parameter and not
  modelled separately.
- On the records page `getAdminClient()` (`pages/records.tsx:38`) is called
  outside any `try`. When it throws, the page fails with a server error rather
  than taking the read-error fallback. `Records.ServerSideProps` does not model
  that failure.
- A request body is an object or absent. A truthy body that is not an object,
  such as a raw string when JSON parsing is bypassed, is not modelled in
  `Submit.Handle` or `AdminCookie.Login`.
- `pages/api/env-check.ts` and `pages/admin-login.tsx` are not part of this
  model.
- React mechanics are left out: rendering, hooks, the loading flag, the memo.
  The module-level `useState` at `pages/index.tsx:39` would fail outside a
  component; the model takes the form state as a value.
- Number and date formatting are left out:
  - `String(area_ping)` is represented by its text.
  - `toLocaleString` appears in the success message and the table; the success
    notice carries the amount, not the formatted text.
  - `new Date(...).toLocaleString()` in the table is not modelled.
- The CSV download is left out: the Blob, the object URL and the dated file
  name.
- `ctx.query.page` given as an array (a repeated parameter) is not modelled.
- The browser's handling of the cookie is not modelled. Its `Max-Age` expiry,
  `Path`, `HttpOnly` and `Secure` are left out, and only the first
  `name=value` pair of the header is returned.
- Cookie values are decoded with `decodeURIComponent`, falling back to the raw
  text. Stripping of surrounding double quotes is not modelled; an encoded
  value never has them.
- The `type === "number"` branch of `onChange` yields the same text as any
  other input, so it is not distinguished.
- The endpoint does no validation. It has no name check, no trimming and no
  length cap, and stores whatever body it gets. Only the browser's `required`
  attribute asks for a name (`IntakeForm.NameRequiredOnlyInBrowser`).
- Build-time inlining of `NEXT_PUBLIC_*` variables into the browser bundle is
  not modelled. The form and the endpoint read one environment.
- `console.error` logging is left out.

=== FILE: admin_cookie.dfy ===
/** The admin login endpoint: checks a POSTed password against the
    configured secret and, on a match, sets the `admin_pwd` cookie the
    records page looks for. */
module AdminCookie {
  import opened Text
  import opened Js
  import UriComponent
  import Records

  /** A request: its method and its parsed body, `None` when `req.body` is falsy. */
  datatype LoginRequest = LoginRequest(verb: string, body: Option<Object>)

  /** The reply body: none (`res.end()`), `{ ok: true }`, or `{ error }`. */
  datatype LoginBody = NoBody | Confirmed | Rejected(error: string)

  /** The status, the body and the `Set-Cookie` header, if one was set. */
  datatype LoginReply = LoginReply(status: int, body: LoginBody, setCookie: Option<string>)

  const ProductionVariable := "NODE_ENV"

  /** `const { pwd } = req.body || {}`. */
  function PasswordOf(req: LoginRequest): Value {
    Get(if req.body.Some? then req.body.value else map[], "pwd")
  }

  /** `pwd === process.env.RECORDS_ADMIN_PWD`: only a string can be equal to
      the secret, and only when the secret is set. */
  predicate MatchesSecret(pwd: Value, env: Env) {
    pwd == EnvValue(env, Records.AdminSecretVariable)
  }

  predicate IsProduction(env: Env) {
    ProductionVariable in env && env[ProductionVariable] == "production"
  }

  /** `xs.filter(Boolean)` on strings: the non-empty ones, in order. */
  function NonEmpty(xs: seq<string>): (r: seq<string>)
    ensures forall i :: 0 <= i < |r| ==> r[i] != ""
    ensures Subsequence(r, xs)
    ensures forall x :: x != "" ==> multiset(r)[x] == multiset(xs)[x]
  {
    if xs == [] then []
    else
      var rest := NonEmpty(xs[1..]);
      assert xs == [xs[0]] + xs[1..];
      if xs[0] != "" then
        assert ([xs[0]] + rest)[1..] == rest;
        [xs[0]] + rest
      else
        assert rest == [] || Subsequence(rest, xs[1..]);
        rest
  }

  /** The cookie's attributes, `Secure` only in production, empty parts dropped. */
  function CookieParts(pwd: string, env: Env): (parts: seq<string>)
    ensures forall i :: 0 <= i < |parts| ==> parts[i] != ""
  {
    NonEmpty([
      Records.CookieName + "=" + UriComponent.Encode(pwd),
      "Path=/",
      "HttpOnly",
      "SameSite=Lax",
      "Max-Age=604800",
      if IsProduction(env) then "Secure" else ""])
  }

  /** `cookieParts.join("; ")`. */
  function CookieHeader(pwd: string, env: Env): string {
    Join(CookieParts(pwd, env), "; ")
  }

  /** Filtering a list that starts with `x`. */
  lemma NonEmptyCons(x: string, ys: seq<string>)
    ensures NonEmpty([x] + ys) == if x != "" then [x] + NonEmpty(ys) else NonEmpty(ys)
  {
    assert ([x] + ys)[1..] == ys;
  }

  /** Filtering six parts of which only the last may be empty. */
  lemma NonEmptySix(a: string, b: string, c: string, d: string, e: string, f: string)
    requires a != "" && b != "" && c != "" && d != "" && e != ""
    ensures NonEmpty([a, b, c, d, e, f]) == [a, b, c, d, e] + (if f != "" then [f] else [])
  {
    NonEmptyCons(f, []);
    NonEmptyCons(e, [f]);
    NonEmptyCons(d, [e, f]);
    NonEmptyCons(c, [d, e, f]);
    NonEmptyCons(b, [c, d, e, f]);
    NonEmptyCons(a, [b, c, d, e, f]);
    assert [a, b, c, d, e, f] == [a] + [b, c, d, e, f];
    assert [b, c, d, e, f] == [b] + [c, d, e, f];
    assert [c, d, e, f] == [c] + [d, e, f];
    assert [d, e, f] == [d] + [e, f];
    assert [e, f] == [e] + [f];
  }

  /** Joining five parts. */
  lemma JoinFive(a: string, b: string, c: string, d: string, e: string, sep: string)
    ensures Join([a, b, c, d, e], sep) == a + (sep + (b + sep + c + sep + d + sep + e))
  {
    assert [a] + [b] == [a, b];
    JoinSnoc([a], b, sep);
    assert [a, b] + [c] == [a, b, c];
    JoinSnoc([a, b], c, sep);
    assert [a, b, c] + [d] == [a, b, c, d];
    JoinSnoc([a, b, c], d, sep);
    assert [a, b, c, d] + [e] == [a, b, c, d, e];
    JoinSnoc([a, b, c, d], e, sep);
    assert a + sep + b + sep + c + sep + d + sep + e == a + (sep + (b + sep + c + sep + d + sep + e));
  }

  /** The parts left after the filter. */
  lemma CookiePartsList(pwd: string, env: Env)
    ensures CookieParts(pwd, env)
      == [Records.CookieName + "=" + UriComponent.Encode(pwd), "Path=/", "HttpOnly", "SameSite=Lax", "Max-Age=604800"]
         + (if IsProduction(env) then ["Secure"] else [])
  {
    var first := Records.CookieName + "=" + UriComponent.Encode(pwd);
    var last := if IsProduction(env) then "Secure" else "";
    NonEmptySix(first, "Path=/", "HttpOnly", "SameSite=Lax", "Max-Age=604800", last);
  }

  /** Joining five parts and, optionally, a sixth. */
  lemma JoinFiveMaybeSix(a: string, b: string, c: string, d: string, e: string, f: string, sep: string, six: bool)
    ensures Join([a, b, c, d, e] + (if six then [f] else []), sep)
      == a + (sep + (b + sep + c + sep + d + sep + e) + (if six then sep + f else ""))
  {
    var five := [a, b, c, d, e];
    JoinFive(a, b, c, d, e, sep);
    if six {
      JoinSnoc(five, f, sep);
    } else {
      assert five + [] == five;
    }
  }

  /** The header is the pair, the four fixed attributes of a seven-day
      cookie, and `Secure` exactly in production, joined by `"; "`. */
  lemma CookieHeaderExact(pwd: string, env: Env)
    ensures CookieHeader(pwd, env)
      == Records.CookieName + "=" + UriComponent.Encode(pwd)
         + ("; " + ("Path=/" + "; " + "HttpOnly" + "; " + "SameSite=Lax" + "; " + "Max-Age=604800")
            + (if IsProduction(env) then "; " + "Secure" else ""))
  {
    var first := Records.CookieName + "=" + UriComponent.Encode(pwd);
    CookiePartsList(pwd, env);
    JoinFiveMaybeSix(first, "Path=/", "HttpOnly", "SameSite=Lax", "Max-Age=604800", "Secure", "; ", IsProduction(env));
  }

  /** `handler(req, res)` of the login endpoint. */
  function Login(req: LoginRequest, env: Env): (r: LoginReply)
    ensures req.verb != "POST" ==> r == LoginReply(405, NoBody, None)
    ensures req.verb == "POST" && !Truthy(PasswordOf(req)) ==>
      r == LoginReply(400, Rejected("missing password"), None)
    ensures r.status == 200 <==>
      req.verb == "POST" && Truthy(PasswordOf(req)) && MatchesSecret(PasswordOf(req), env)
    ensures r.status == 401 <==>
      req.verb == "POST" && Truthy(PasswordOf(req)) && !MatchesSecret(PasswordOf(req), env)
    ensures r.status == 401 ==> r == LoginReply(401, Rejected("Invalid password"), None)
    ensures r.setCookie.Some? <==> r.status == 200
    ensures r.status == 200 ==>
      r.body == Confirmed && r.setCookie == Some(CookieHeader(PasswordOf(req).s, env))
  {
    if req.verb != "POST" then LoginReply(405, NoBody, None)
    else
      var pwd := PasswordOf(req);
      if !Truthy(pwd) then LoginReply(400, Rejected("missing password"), None)
      else if MatchesSecret(pwd, env) then
        LoginReply(200, Confirmed, Some(CookieHeader(pwd.s, env)))
      else
        LoginReply(401, Rejected("Invalid password"), None)
  }

  /** With no secret configured no password is accepted, and no body
      other than a non-empty string password equal to the secret is. */
  lemma LoginAcceptsOnlyTheSecret(req: LoginRequest, env: Env)
    ensures Login(req, env).status == 200 ==>
      Records.AdminSecretVariable in env && env[Records.AdminSecretVariable] != ""
      && PasswordOf(req) == Str(env[Records.AdminSecretVariable])
    ensures Records.AdminSecretVariable !in env ==> Login(req, env).status != 200
  {
  }

  /** The reply statuses are exactly 405, 400, 200 and 401. */
  lemma LoginStatuses(req: LoginRequest, env: Env)
    ensures Login(req, env).status in {405, 400, 200, 401}
  {
  }

  // ------------------------------------------------ the cookie coming back

  /** What the browser sends back for a `Set-Cookie` header: its first
      `name=value` pair, the attributes after the first ';' stripped. */
  function ReturnedPair(header: string): string {
    Before(header, ';')
  }

  /** A cookie value as the records page reads it: percent-decoded, or
      left as it is when it does not decode. */
  function CookieDecode(v: string): string {
    var d := UriComponent.Decode(v);
    if d.Some? then d.value else v
  }

  /** The cookies the records page sees for a returned `name=value` pair. */
  function ParsedCookies(pair: string): map<string, string> {
    map[Before(pair, '=') := CookieDecode(After(pair, '='))]
  }

  /** An encoded value holds neither ';' nor '='. */
  lemma EncodedIsPlain(pwd: string)
    ensures ';' !in UriComponent.Encode(pwd) && '=' !in UriComponent.Encode(pwd)
  {
    var encoded := UriComponent.Encode(pwd);
    forall i | 0 <= i < |encoded|
      ensures encoded[i] != ';' && encoded[i] != '='
    {
      assert UriComponent.Unreserved(encoded[i]) || encoded[i] == '%';
    }
  }

  /** The text before the first ';' of `x + y`, when `x` holds none and `y` starts with one. */
  lemma BeforeSeparator(x: string, y: string)
    requires ';' !in x && y != [] && y[0] == ';'
    ensures Before(x + y, ';') == x
  {
    assert y == [';'] + y[1..];
    ConcatAssoc(x, [';'], y[1..]);
    SplitAtFirst(x, ';', y[1..]);
  }

  /** The browser returns `admin_pwd=<encoded password>`. */
  lemma ReturnedPairOfHeader(pwd: string, env: Env)
    ensures ReturnedPair(CookieHeader(pwd, env)) == Records.CookieName + "=" + UriComponent.Encode(pwd)
  {
    var pair := Records.CookieName + "=" + UriComponent.Encode(pwd);
    var fixed := "Path=/" + "; " + "HttpOnly" + "; " + "SameSite=Lax" + "; " + "Max-Age=604800";
    var rest := "; " + fixed + (if IsProduction(env) then "; " + "Secure" else "");
    CookieHeaderExact(pwd, env);
    EncodedIsPlain(pwd);
    assert ';' !in pair;
    assert rest[0] == ';';
    BeforeSeparator(pair, rest);
  }

  /** The returned pair is read back as the password itself. */
  lemma ParsedCookiesOfPair(pwd: string)
    ensures ParsedCookies(Records.CookieName + "=" + UriComponent.Encode(pwd)) == map[Records.CookieName := pwd]
  {
    var encoded := UriComponent.Encode(pwd);
    assert Records.CookieName + "=" + encoded == Records.CookieName + ['='] + encoded;
    SplitAtFirst(Records.CookieName, '=', encoded);
    UriComponent.DecodeEncode(pwd);
  }

  /** The cookie set by a successful login gets the same browser through
      the records page's gate. */
  lemma IssuedCookieAdmits(req: LoginRequest, env: Env)
    requires Login(req, env).status == 200
    ensures Records.Admitted(ParsedCookies(ReturnedPair(Login(req, env).setCookie.value)), env)
  {
    var pwd := PasswordOf(req).s;
    ReturnedPairOfHeader(pwd, env);
    ParsedCookiesOfPair(pwd);
  }
}

=== FILE: csv.dfy ===
/** The CSV export of the records page: fifteen titled columns, one quoted
    line per shown lead, lines joined by LF, a byte-order mark in front. A
    reader for the quoting rules of RFC 4180 (section 2, rules 5 to 7, with
    LF as the line break) reads every export back into the cells it was
    written from. */
module Csv {
  import opened Text
  import opened Js
  import opened Records

  const Bom: char := '\U{FEFF}'

  /** The column titles, in column order. */
  const Headers: seq<string> := [
    "建立日期", "客戶名稱", "電話", "信箱", "坪數", "案件類別", "來源", "預算區間",
    "木作", "系統櫃", "水電", "油漆", "地板", "估算報價", "備註"]

  // ---------------------------------------------------------------- cells

  /** `x ?? ""` for a string field. */
  function OrEmpty(x: Option<string>): string {
    if x.Some? then x.value else ""
  }

  /** `flag ? "1" : ""`. */
  function FlagCell(flag: Option<bool>): (c: string)
    ensures c == "1" || c == ""
    ensures c == "1" <==> flag == Some(true)
  {
    if flag == Some(true) then "1" else ""
  }

  /** `r.phone ? "\t" + r.phone : ""`: the tab keeps spreadsheets from
      reading the number as a number. */
  function PhoneCell(phone: Option<string>): (c: string)
    ensures c == [] <==> phone.None? || phone.value == []
    ensures c != [] ==> c[0] == '\t' && c[1..] == phone.value
  {
    if phone.Some? && phone.value != [] then "\t" + phone.value else ""
  }

  /** `String(r.quote_estimate ?? "")`. */
  function EstimateCell(q: Option<int>): string {
    if q.Some? then IntToString(q.value) else ""
  }

  function SanitizeChar(c: char): char {
    if c == '\n' then ' ' else if c == ',' then '，' else c
  }

  /** `notes.replace(/\n/g, " ").replace(/,/g, "，")`. */
  function SanitizeNotes(s: string): (r: string)
    ensures |r| == |s|
    ensures forall i :: 0 <= i < |s| ==> r[i] == SanitizeChar(s[i])
  {
    if s == [] then [] else [SanitizeChar(s[0])] + SanitizeNotes(s[1..])
  }

  /** Sanitised notes hold no LF and no comma, and notes that had neither come
      through unchanged; a CR or a '"' is kept. */
  lemma SanitizedNotesLackLfAndComma(s: string)
    ensures '\n' !in SanitizeNotes(s) && ',' !in SanitizeNotes(s)
    ensures '\n' !in s && ',' !in s ==> SanitizeNotes(s) == s
  {
    var r := SanitizeNotes(s);
    forall i | 0 <= i < |r|
      ensures r[i] != '\n' && r[i] != ','
    {
      assert r[i] == SanitizeChar(s[i]);
    }
  }

  /** The exported columns, named after the stored fields they show. */
  datatype Column =
    | CreatedAt | ClientName | Phone | Email | AreaPing | Category | Source | BudgetRange
    | AddCarpentry | AddSystemFurniture | AddElectrical | AddPainting | AddFlooring
    | QuoteEstimate | Notes

  /** The columns in export order. */
  const Columns: seq<Column> := [
    CreatedAt, ClientName, Phone, Email, AreaPing, Category, Source, BudgetRange,
    AddCarpentry, AddSystemFurniture, AddElectrical, AddPainting, AddFlooring,
    QuoteEstimate, Notes]

  /** The title a column carries in the header line. */
  function Title(c: Column): string {
    match c
    case CreatedAt => "建立日期"
    case ClientName => "客戶名稱"
    case Phone => "電話"
    case Email => "信箱"
    case AreaPing => "坪數"
    case Category => "案件類別"
    case Source => "來源"
    case BudgetRange => "預算區間"
    case AddCarpentry => "木作"
    case AddSystemFurniture => "系統櫃"
    case AddElectrical => "水電"
    case AddPainting => "油漆"
    case AddFlooring => "地板"
    case QuoteEstimate => "估算報價"
    case Notes => "備註"
  }

  /** What a lead shows in a column. */
  function CellFor(c: Column, r: LeadRow): string {
    match c
    case CreatedAt => r.createdAt
    case ClientName => OrEmpty(r.clientName)
    case Phone => PhoneCell(r.phone)
    case Email => OrEmpty(r.email)
    case AreaPing => OrEmpty(r.area)
    case Category => OrEmpty(r.category)
    case Source => OrEmpty(r.source)
    case BudgetRange => OrEmpty(r.budgetRange)
    case AddCarpentry => FlagCell(r.carpentry)
    case AddSystemFurniture => FlagCell(r.systemFurniture)
    case AddElectrical => FlagCell(r.electrical)
    case AddPainting => FlagCell(r.painting)
    case AddFlooring => FlagCell(r.flooring)
    case QuoteEstimate => EstimateCell(r.quoteEstimate)
    case Notes => SanitizeNotes(OrEmpty(r.notes))
  }

  /** Where a column stands in a record, counting from 0. */
  function Position(c: Column): (i: nat)
    ensures i < |Columns| && Columns[i] == c
  {
    match c
    case CreatedAt => 0
    case ClientName => 1
    case Phone => 2
    case Email => 3
    case AreaPing => 4
    case Category => 5
    case Source => 6
    case BudgetRange => 7
    case AddCarpentry => 8
    case AddSystemFurniture => 9
    case AddElectrical => 10
    case AddPainting => 11
    case AddFlooring => 12
    case QuoteEstimate => 13
    case Notes => 14
  }

  /** The header line carries each column's title at the column's position. */
  lemma HeadersAreTitles()
    ensures |Headers| == |Columns|
    ensures forall c: Column :: Headers[Position(c)] == Title(c)
  {
  }

  /** The fifteen cells of a lead, the cell of each column at its position,
      and so under its title in `Headers`: the five add-on cells are "1" or
      empty, the phone cell is empty or starts with a tab, and the notes cell
      holds no LF and no comma. */
  function RowCells(r: LeadRow): (cells: seq<string>)
    ensures |cells| == |Columns| == |Headers|
    ensures forall c: Column :: cells[Position(c)] == CellFor(c, r)
    ensures forall i :: 8 <= i < 13 ==> cells[i] == "1" || cells[i] == ""
    ensures cells[2] == "" || cells[2][0] == '\t'
    ensures '\n' !in cells[14] && ',' !in cells[14]
  {
    var cells := seq(|Columns|, i requires 0 <= i < |Columns| => CellFor(Columns[i], r));
    CellShapes(r, cells);
    cells
  }

  /** Cells laid out by column: the add-on cells are flags, the phone cell
      is empty or tab-led, and the notes cell holds no LF and no comma. */
  lemma CellShapes(r: LeadRow, cells: seq<string>)
    requires |cells| == |Columns|
    requires forall c: Column :: cells[Position(c)] == CellFor(c, r)
    ensures forall i :: 8 <= i < 13 ==> cells[i] == "1" || cells[i] == ""
    ensures cells[2] == "" || cells[2][0] == '\t'
    ensures '\n' !in cells[14] && ',' !in cells[14]
  {
    assert cells[2] == CellFor(Phone, r);
    assert cells[8] == CellFor(AddCarpentry, r);
    assert cells[9] == CellFor(AddSystemFurniture, r);
    assert cells[10] == CellFor(AddElectrical, r);
    assert cells[11] == CellFor(AddPainting, r);
    assert cells[12] == CellFor(AddFlooring, r);
    assert cells[14] == CellFor(Notes, r);
    SanitizedNotesLackLfAndComma(OrEmpty(r.notes));
  }

  // ---------------------------------------------------------------- writing

  /** Every '"' written twice. */
  function Doubled(x: string): string {
    if x == [] then []
    else (if x[0] == '"' then "\"\"" else [x[0]]) + Doubled(x[1..])
  }

  /** `"${String(x).replace(/"/g, '""')}"`. */
  function Escape(x: string): (r: string)
    ensures |r| >= 2 && r[0] == '"' && r[|r| - 1] == '"'
  {
    "\"" + Doubled(x) + "\""
  }

  /** Each cell escaped. */
  function Quoted(cells: seq<string>): (r: seq<string>)
    ensures |r| == |cells|
  {
    if cells == [] then [] else [Escape(cells[0])] + Quoted(cells[1..])
  }

  /** A line of cells, each escaped, joined by ','. */
  function Line(cells: seq<string>): string {
    Join(Quoted(cells), ",")
  }

  /** `headerTitles.join(",")`: the titles are written unescaped. */
  function HeaderLine(): string {
    Join(Headers, ",")
  }

  /** One line per record. */
  function Lines(table: seq<seq<string>>): (r: seq<string>)
    ensures |r| == |table|
  {
    if table == [] then [] else [Line(table[0])] + Lines(table[1..])
  }

  /** `[headerTitles.join(","), ...rowsForCsv].join("\n")`, each lead's line
      being its cells escaped and joined by ','. */
  function Content(rows: seq<LeadRow>): string {
    Join([HeaderLine()] + Lines(Table(rows)), "\n")
  }

  /** `"﻿" + content`: a byte-order mark, then text that reads back as the
      title line followed by the cells of every lead, in order. */
  function ExportText(rows: seq<LeadRow>): (r: string)
    ensures |r| >= 1 && r[0] == Bom
    ensures ParseDocument(r[1..]) == Some([Headers] + Table(rows))
  {
    ContentReadsBack(rows);
    assert ([Bom] + Content(rows))[1..] == Content(rows);
    [Bom] + Content(rows)
  }

  /** The export button: the rows the search shows, written out, so the
      file reads back as the titles and one record per shown lead. */
  function Export(rows: seq<LeadRow>, q: string): (r: string)
    ensures |r| >= 1 && r[0] == Bom
    ensures ParseDocument(r[1..]) == Some([Headers] + Table(Search(rows, q)))
  {
    ExportText(Search(rows, q))
  }

  /** The cells of each lead, one record per lead. */
  function Table(rows: seq<LeadRow>): (t: seq<seq<string>>)
    ensures |t| == |rows|
    ensures forall i :: 0 <= i < |rows| ==> t[i] == RowCells(rows[i])
  {
    seq(|rows|, i requires 0 <= i < |rows| => RowCells(rows[i]))
  }

  // ---------------------------------------------------------------- reading

  /** A quoted field's contents, read after its opening quote: up to the
      closing quote, `""` standing for one quote. Gives the contents and
      what follows the closing quote. */
  function ParseQuoted(s: string): (r: Option<(string, string)>)
    ensures r.Some? ==> |r.value.1| < |s|
    decreases |s|
  {
    if s == [] then None
    else if s[0] == '"' then
      if |s| >= 2 && s[1] == '"' then
        match ParseQuoted(s[2..])
        case None => None
        case Some((f, rest)) => Some(("\"" + f, rest))
      else
        Some(([], s[1..]))
    else
      match ParseQuoted(s[1..])
      case None => None
      case Some((f, rest)) => Some(([s[0]] + f, rest))
  }

  /** An unquoted field: up to the next ',' or line break; a '"' in it is an error. */
  function ParseUnquoted(s: string): (r: Option<(string, string)>)
    ensures r.Some? ==> r.value.0 + r.value.1 == s
  {
    if s == [] || s[0] == ',' || s[0] == '\n' then Some(([], s))
    else if s[0] == '"' then None
    else
      match ParseUnquoted(s[1..])
      case None => None
      case Some((f, rest)) => Some(([s[0]] + f, rest))
  }

  function ParseField(s: string): (r: Option<(string, string)>)
    ensures r.Some? ==> |r.value.1| <= |s|
  {
    if s != [] && s[0] == '"' then ParseQuoted(s[1..]) else ParseUnquoted(s)
  }

  /** One record: fields separated by ',' up to a line break or the end.
      Gives the fields, and the text after the line break (`None` at the end). */
  function ParseRecord(s: string): (r: Option<(seq<string>, Option<string>)>)
    ensures r.Some? && r.value.1.Some? ==> |r.value.1.value| < |s|
    decreases |s|
  {
    match ParseField(s)
    case None => None
    case Some((f, rest)) =>
      if rest == [] then Some(([f], None))
      else if rest[0] == '\n' then Some(([f], Some(rest[1..])))
      else if rest[0] == ',' then
        match ParseRecord(rest[1..])
        case None => None
        case Some((fs, after)) => Some(([f] + fs, after))
      else None
  }

  /** A whole document: records up to the end of the text. */
  function ParseDocument(s: string): Option<seq<seq<string>>>
    decreases |s|
  {
    match ParseRecord(s)
    case None => None
    case Some((fields, next)) =>
      if next.None? then Some([fields])
      else
        match ParseDocument(next.value)
        case None => None
        case Some(records) => Some([fields] + records)
  }

  // ---------------------------------------------------------------- round trip

  /** What may follow a field: nothing, a ',' or a line break. */
  predicate Delimited(t: string) {
    t == [] || t[0] == ',' || t[0] == '\n'
  }

  /** A cell that can be written unescaped. */
  predicate Plain(x: string) {
    forall i :: 0 <= i < |x| ==> x[i] != ',' && x[i] != '\n' && x[i] != '"'
  }

  lemma {:induction false} ParseQuotedDoubled(x: string, t: string)
    requires Delimited(t)
    ensures ParseQuoted(Doubled(x) + "\"" + t) == Some((x, t))
  {
    if x == [] {
      var s := Doubled(x) + "\"" + t;
      assert s == ['"'] + t;
      assert s[1..] == t;
    } else {
      ParseQuotedDoubled(x[1..], t);
      if x[0] == '"' {
        ParseDoubledQuote(x, t);
      } else {
        ParseDoubledOther(x, t);
      }
    }
  }

  /** A doubled quote reads back as one quote before the rest of the cell. */
  lemma ParseDoubledQuote(x: string, t: string)
    requires x != [] && x[0] == '"'
    requires ParseQuoted(Doubled(x[1..]) + "\"" + t) == Some((x[1..], t))
    ensures ParseQuoted(Doubled(x) + "\"" + t) == Some((x, t))
  {
    var tail := Doubled(x[1..]) + "\"" + t;
    assert Doubled(x) == "\"\"" + Doubled(x[1..]);
    ConcatAssoc("\"\"", Doubled(x[1..]), "\"");
    ConcatAssoc("\"\"", Doubled(x[1..]) + "\"", t);
    ParseQuotedPair(tail, x[1..], t);
    assert "\"" + x[1..] == x;
  }

  /** Any other character reads back as itself before the rest of the cell. */
  lemma {:induction false} ParseDoubledOther(x: string, t: string)
    requires x != [] && x[0] != '"'
    requires ParseQuoted(Doubled(x[1..]) + "\"" + t) == Some((x[1..], t))
    ensures ParseQuoted(Doubled(x) + "\"" + t) == Some((x, t))
  {
    var tail := Doubled(x[1..]) + "\"" + t;
    assert Doubled(x) == [x[0]] + Doubled(x[1..]);
    ConcatAssoc([x[0]], Doubled(x[1..]), "\"");
    ConcatAssoc([x[0]], Doubled(x[1..]) + "\"", t);
    ParseQuotedCons(x[0], tail, x[1..], t);
    assert [x[0]] + x[1..] == x;
  }

  /** Inside quotes, `""` reads as one quote. */
  lemma ParseQuotedPair(tail: string, f: string, rest: string)
    requires ParseQuoted(tail) == Some((f, rest))
    ensures ParseQuoted("\"\"" + tail) == Some(("\"" + f, rest))
  {
    var s := "\"\"" + tail;
    assert s[2..] == tail;
  }

  /** Inside quotes, any character but a quote reads as itself. */
  lemma ParseQuotedCons(c: char, tail: string, f: string, rest: string)
    requires c != '"' && ParseQuoted(tail) == Some((f, rest))
    ensures ParseQuoted([c] + tail) == Some(([c] + f, rest))
  {
    var s := [c] + tail;
    assert s[1..] == tail;
  }

  /** An escaped cell reads back as the cell (rules 6 and 7). */
  lemma ParseEscaped(x: string, t: string)
    requires Delimited(t)
    ensures ParseField(Escape(x) + t) == Some((x, t))
  {
    ParseQuotedDoubled(x, t);
    assert (Escape(x) + t)[1..] == Doubled(x) + "\"" + t;
  }

  /** A plain cell reads back as itself (rule 5 allows it unquoted). */
  lemma {:induction false} ParsePlain(x: string, t: string)
    requires Plain(x) && Delimited(t)
    ensures ParseField(x + t) == Some((x, t))
  {
    if x != [] {
      ParsePlain(x[1..], t);
      assert (x + t)[1..] == x[1..] + t;
      assert [x[0]] + x[1..] == x;
    } else {
      assert x + t == t;
    }
  }

  /** The cells as written: escaped, or as they are. */
  function Written(cells: seq<string>, escaped: bool): (r: seq<string>)
    ensures |r| == |cells|
  {
    if escaped then Quoted(cells) else cells
  }

  lemma WrittenTail(cells: seq<string>, escaped: bool)
    requires cells != []
    ensures Written(cells, escaped) == [Written(cells, escaped)[0]] + Written(cells[1..], escaped)
    ensures Written(cells, escaped)[0] == if escaped then Escape(cells[0]) else cells[0]
  {
  }

  /** The first written cell reads back as the first cell. */
  lemma ParseFirstWritten(cells: seq<string>, escaped: bool, t: string)
    requires cells != [] && (escaped || Plain(cells[0])) && Delimited(t)
    ensures ParseField(Written(cells, escaped)[0] + t) == Some((cells[0], t))
  {
    WrittenTail(cells, escaped);
    if escaped { ParseEscaped(cells[0], t); } else { ParsePlain(cells[0], t); }
  }

  /** A record's last field. */
  lemma ParseRecordLast(s: string, x: string, t: string)
    requires ParseField(s) == Some((x, t)) && (t == [] || t[0] == '\n')
    ensures ParseRecord(s) == Some(([x], if t == [] then None else Some(t[1..])))
  {
  }

  /** A record's field followed by a ','. */
  lemma ParseRecordComma(s: string, x: string, rest: string)
    requires ParseField(s) == Some((x, "," + rest))
    ensures ParseRecord(rest).Some? ==>
      ParseRecord(s) == Some(([x] + ParseRecord(rest).value.0, ParseRecord(rest).value.1))
  {
    assert ("," + rest)[1..] == rest;
  }

  /** A line of one written cell. */
  lemma ParseOneCellLine(cells: seq<string>, escaped: bool, t: string)
    requires |cells| == 1 && (escaped || Plain(cells[0]))
    requires t == [] || t[0] == '\n'
    ensures ParseRecord(Join(Written(cells, escaped), ",") + t)
      == Some((cells, if t == [] then None else Some(t[1..])))
  {
    var w := Written(cells, escaped);
    assert Join(w, ",") == w[0];
    assert cells == [cells[0]];
    ParseFirstWritten(cells, escaped, t);
    ParseRecordLast(w[0] + t, cells[0], t);
  }

  /** A written line split after its first cell. */
  lemma LineAfterFirst(cells: seq<string>, escaped: bool, t: string)
    requires |cells| >= 2
    ensures Join(Written(cells, escaped), ",") + t
      == Written(cells, escaped)[0] + ("," + (Join(Written(cells[1..], escaped), ",") + t))
  {
    var w := Written(cells, escaped);
    var rest := Join(Written(cells[1..], escaped), ",");
    WrittenTail(cells, escaped);
    JoinCons(w[0], Written(cells[1..], escaped), ",");
    ConcatAssoc(w[0], ",", rest);
    ConcatAssoc(w[0], "," + rest, t);
    ConcatAssoc(",", rest, t);
  }

  /** One line of written cells, followed by the end or a line break, reads
      back as those cells. */
  lemma {:induction false} ParseLine(cells: seq<string>, escaped: bool, t: string)
    requires cells != [] && (escaped || forall i :: 0 <= i < |cells| ==> Plain(cells[i]))
    requires t == [] || t[0] == '\n'
    ensures ParseRecord(Join(Written(cells, escaped), ",") + t)
      == Some((cells, if t == [] then None else Some(t[1..])))
  {
    if |cells| == 1 {
      ParseOneCellLine(cells, escaped, t);
    } else {
      var w := Written(cells, escaped);
      var more := Join(Written(cells[1..], escaped), ",") + t;
      LineAfterFirst(cells, escaped, t);
      ParseFirstWritten(cells, escaped, "," + more);
      ParseLine(cells[1..], escaped, t);
      ParseRecordComma(w[0] + ("," + more), cells[0], more);
      assert [cells[0]] + cells[1..] == cells;
    }
  }

  /** The titles can be written unescaped. */
  lemma HeadersArePlain()
    ensures forall i :: 0 <= i < |Headers| ==> Plain(Headers[i])
  {
    forall i | 0 <= i < |Headers|
      ensures Plain(Headers[i])
    {
      var h := Headers[i];
      forall j | 0 <= j < |h|
        ensures h[j] != ',' && h[j] != '\n' && h[j] != '"'
      {
        assert h[j] as int >= 0x4E00;
      }
    }
  }

  /** The header line reads back as the titles. */
  lemma ParseHeaderLine(t: string)
    requires t == [] || t[0] == '\n'
    ensures ParseRecord(HeaderLine() + t) == Some((Headers, if t == [] then None else Some(t[1..])))
  {
    HeadersArePlain();
    ParseLine(Headers, false, t);
  }

  /** A line of escaped cells reads back as those cells. */
  lemma ParseEscapedLine(cells: seq<string>, t: string)
    requires cells != [] && (t == [] || t[0] == '\n')
    ensures ParseRecord(Line(cells) + t) == Some((cells, if t == [] then None else Some(t[1..])))
  {
    ParseLine(cells, true, t);
  }

  /** A document's first record. */
  lemma ParseDocumentLast(s: string, fields: seq<string>)
    requires ParseRecord(s) == Some((fields, None))
    ensures ParseDocument(s) == Some([fields])
  {
  }

  lemma ParseDocumentNext(s: string, fields: seq<string>, rest: string)
    requires ParseRecord(s) == Some((fields, Some(rest))) && ParseDocument(rest).Some?
    ensures ParseDocument(s) == Some([fields] + ParseDocument(rest).value)
  {
  }

  /** Lines of non-empty records, joined by line breaks, read back as the records. */
  lemma {:induction false} ParseLines(table: seq<seq<string>>)
    requires table != [] && forall i :: 0 <= i < |table| ==> table[i] != []
    ensures ParseDocument(Join(Lines(table), "\n")) == Some(table)
  {
    if |table| == 1 {
      ParseOneLineTable(table);
    } else {
      ParseLines(table[1..]);
      ParseMoreLines(table);
    }
  }

  /** A table of one record is its one line. */
  lemma ParseOneLineTable(table: seq<seq<string>>)
    requires |table| == 1 && table[0] != []
    ensures ParseDocument(Join(Lines(table), "\n")) == Some(table)
  {
    assert Lines(table) == [Line(table[0])];
    assert table == [table[0]];
    ParseSingleLine(table[0]);
  }

  /** A first line followed by lines that read back as the rest of the table. */
  lemma {:induction false} ParseMoreLines(table: seq<seq<string>>)
    requires |table| >= 2 && table[0] != []
    requires ParseDocument(Join(Lines(table[1..]), "\n")) == Some(table[1..])
    ensures ParseDocument(Join(Lines(table), "\n")) == Some(table)
  {
    JoinLinesCons(table);
    ParseFollowedLine(table[0], table[1..], Join(Lines(table[1..]), "\n"));
    assert [table[0]] + table[1..] == table;
  }

  /** The lines of a table of two or more records: the first line, a line break, the others. */
  lemma JoinLinesCons(table: seq<seq<string>>)
    requires |table| >= 2
    ensures Join(Lines(table), "\n") == Line(table[0]) + "\n" + Join(Lines(table[1..]), "\n")
  {
    var rest := Lines(table[1..]);
    assert Lines(table) == [Line(table[0])] + rest;
    JoinCons(Line(table[0]), rest, "\n");
  }

  lemma ParseSingleLine(cells: seq<string>)
    requires cells != []
    ensures ParseDocument(Line(cells)) == Some([cells])
  {
    ParseEscapedLine(cells, []);
    assert Line(cells) + [] == Line(cells);
    ParseDocumentLast(Line(cells), cells);
  }

  lemma ParseFollowedLine(cells: seq<string>, more: seq<seq<string>>, text: string)
    requires cells != [] && ParseDocument(text) == Some(more)
    ensures ParseDocument(Line(cells) + "\n" + text) == Some([cells] + more)
  {
    ParseEscapedLine(cells, "\n" + text);
    assert ("\n" + text)[1..] == text;
    ParseFirstThen(Line(cells), cells, text, more);
  }

  /** A first line that reads as `fields`, followed by the lines of a table. */
  lemma ParseFirstAndLines(h: string, fields: seq<string>, table: seq<seq<string>>)
    requires forall i :: 0 <= i < |table| ==> table[i] != []
    requires ParseRecord(h) == Some((fields, None))
    requires table != [] ==>
      ParseRecord(h + ("\n" + Join(Lines(table), "\n"))) == Some((fields, Some(Join(Lines(table), "\n"))))
    ensures ParseDocument(Join([h] + Lines(table), "\n")) == Some([fields] + table)
  {
    if table == [] {
      ParseFirstOnly(h, fields, Lines(table));
      assert [fields] + table == [fields];
    } else {
      JoinCons(h, Lines(table), "\n");
      ParseLines(table);
      ParseFirstThen(h, fields, Join(Lines(table), "\n"), table);
    }
  }

  /** A first line that reads as `fields` and nothing after it. */
  lemma ParseFirstOnly(h: string, fields: seq<string>, lines: seq<string>)
    requires lines == [] && ParseRecord(h) == Some((fields, None))
    ensures ParseDocument(Join([h] + lines, "\n")) == Some([fields])
  {
    JoinCons(h, lines, "\n");
    ParseDocumentLast(h, fields);
  }

  /** A first line that reads as `fields`, followed by a document. */
  lemma ParseFirstThen(h: string, fields: seq<string>, text: string, more: seq<seq<string>>)
    requires ParseDocument(text) == Some(more)
    requires ParseRecord(h + ("\n" + text)) == Some((fields, Some(text)))
    ensures ParseDocument(h + "\n" + text) == Some([fields] + more)
  {
    var t := "\n" + text;
    assert t[1..] == text;
    assert h + "\n" + text == h + t;
    ParseDocumentNext(h + t, fields, text);
  }

  /** Each lead's record has all fifteen cells. */
  lemma TableRecordsNonEmpty(rows: seq<LeadRow>)
    ensures forall i :: 0 <= i < |Table(rows)| ==> Table(rows)[i] != []
  {
    forall i | 0 <= i < |Table(rows)|
      ensures Table(rows)[i] != []
    {
      assert |RowCells(rows[i])| == |Headers|;
    }
  }

  /** The content reads back as the titles followed by the cells of every
      lead, in order: no cell's comma, quote or line break is mistaken for
      structure. */
  lemma ContentReadsBack(rows: seq<LeadRow>)
    ensures ParseDocument(Content(rows)) == Some([Headers] + Table(rows))
  {
    TableRecordsNonEmpty(rows);
    ParseHeaderLine([]);
    assert HeaderLine() + [] == HeaderLine();
    var t := "\n" + Join(Lines(Table(rows)), "\n");
    ParseHeaderLine(t);
    assert t[1..] == Join(Lines(Table(rows)), "\n");
    ParseFirstAndLines(HeaderLine(), Headers, Table(rows));
  }
}

=== FILE: intake_form.dfy ===
/** The public quote form: its initial state, the field update on every
    input change, the live estimate preview, the payload it submits, what it
    does with the endpoint's reply, and the demo password that unlocks it. */
module IntakeForm {
  import opened Js
  import opened Lead
  import opened Pricing
  import Submit

  /** `INITIAL_FORM`: every text field empty except the source, every add-on off. */
  const InitialForm: Object := map[
    NameField := Str(""),
    "phone" := Str(""),
    "email" := Str(""),
    AreaField := Str(""),
    "category" := Str(""),
    "source" := Str("官網"),
    "notes" := Str(""),
    "budget_range" := Str(""),
    FieldOf(Carpentry) := Bool(false),
    FieldOf(SystemFurniture) := Bool(false),
    FieldOf(Electrical) := Bool(false),
    FieldOf(Painting) := Bool(false),
    FieldOf(Flooring) := Bool(false)
  ]

  /** The text fields of the form, besides the add-on checkboxes. */
  const TextFields: set<string> :=
    {NameField, "phone", "email", AreaField, "category", "source", "notes", "budget_range"}

  /** The initial form has the thirteen fields of a lead. */
  lemma InitialFormFields()
    ensures InitialForm.Keys == TextFields + set x: AddOn :: FieldOf(x)
  {
    assert forall x: AddOn :: FieldOf(x) in InitialForm;
  }

  /** In the initial form the five add-ons are off, the source is preset and
      every other text is empty. */
  lemma InitialFormShape()
    ensures forall x: AddOn :: FieldOf(x) in InitialForm && InitialForm[FieldOf(x)] == Bool(false)
    ensures InitialForm["source"] == Str("官網")
    ensures forall k :: k in TextFields && k != "source" ==> k in InitialForm && InitialForm[k] == Str("")
  {
  }

  /** The initial form, with its empty area, previews the base price. */
  lemma InitialPreview(env: Env)
    ensures PreviewEstimate(InitialForm, env) == Round(ResolveRates(env).base)
  {
    InitialArea();
    BlankAreaPreview(InitialForm, env);
  }

  lemma InitialArea()
    ensures Get(InitialForm, AreaField) == Str("")
  {
  }

  /** A form whose area is blank previews the base price. */
  lemma BlankAreaPreview(form: Object, env: Env)
    requires Get(form, AreaField) == Str("")
    ensures PreviewEstimate(form, env) == Round(ResolveRates(env).base)
  {
    var p := ResolveRates(env);
    assert ToNumber(Get(form, AreaField)) == Fin(0.0) by { ParseNumberBlank(""); }
    NonPositiveAreaPricesBase(Get(form, AreaField), form, p);
  }

  /** The target of a change event: the input's name and type, its text and its checked state. */
  datatype InputEvent = InputEvent(name: string, inputType: string, value: string, checked: bool)

  /** `onChange`: `setForm(f => ({ ...f, [name]: value }))`, where a checkbox
      contributes its checked state and every other input its raw text. */
  function OnChange(form: Object, e: InputEvent): (f: Object)
    ensures f.Keys == form.Keys + {e.name}
    ensures forall k :: k in form && k != e.name ==> f[k] == form[k]
    ensures e.inputType == "checkbox" ==> f[e.name] == Bool(e.checked)
    ensures e.inputType != "checkbox" ==> f[e.name] == Str(e.value)
  {
    var value := if e.inputType == "checkbox" then Bool(e.checked) else Str(e.value);
    form[e.name := value]
  }

  /** Ticking an add-on's checkbox leaves every other field as it was, so
      with non-negative add-on rates it never lowers the preview. */
  lemma TickingNeverLowersPreview(form: Object, x: AddOn, env: Env)
    requires AddOnRatesNonNegative(ResolveRates(env))
    ensures PreviewEstimate(form, env)
      <= PreviewEstimate(OnChange(form, InputEvent(FieldOf(x), "checkbox", "", true)), env)
  {
    var g := OnChange(form, InputEvent(FieldOf(x), "checkbox", "", true));
    assert FieldOf(x) != AreaField;
    assert Get(g, AreaField) == Get(form, AreaField);
    forall y: AddOn
      ensures Enabled(form, y) ==> Enabled(g, y)
    {
      if FieldOf(y) != FieldOf(x) {
        assert Get(g, FieldOf(y)) == Get(form, FieldOf(y));
      }
    }
    EstimateMonotoneInAddOns(Get(form, AreaField), form, g, ResolveRates(env));
  }

  /** `calcEstimate(form.area_ping, form)`: the live preview. */
  function PreviewEstimate(form: Object, env: Env): int {
    Estimate(Get(form, AreaField), form, ResolveRates(env))
  }

  /** The submitted payload: `{ ...form, area_ping: form.area_ping ? Number(form.area_ping) : undefined }`. */
  function SubmitPayload(form: Object): Object {
    WithCoercedArea(form)
  }

  /** The body the endpoint receives: the payload after `JSON.stringify` and parsing. */
  function SentBody(form: Object): Object {
    JsonRoundTrip(SubmitPayload(form))
  }

  /** Coercing an area and sending it as JSON keeps its clamped value. */
  lemma ClampAfterJson(v: Value)
    ensures ClampArea(JsonRead(CoerceArea(v))) == ClampArea(v)
  {
    if !Truthy(v) {
      assert JsonRead(CoerceArea(v)) == Undefined;
      if v.Str? {
        assert v.s == "";
        ParseNumberBlank("");
      }
      assert !NumTruthy(ToNumber(v));
    } else if ToNumber(v).NaN? {
      assert JsonRead(CoerceArea(v)) == Null;
    } else {
      assert JsonRead(CoerceArea(v)) == Number(ToNumber(v));
    }
  }

  /** Sending the payload as JSON keeps the clamped area the preview used. */
  lemma SentAreaClampsAlike(form: Object)
    ensures ClampArea(Get(SentBody(form), AreaField)) == ClampArea(Get(form, AreaField))
  {
    JsonGet(SubmitPayload(form), AreaField);
    assert Get(SubmitPayload(form), AreaField) == CoerceArea(Get(form, AreaField));
    ClampAfterJson(Get(form, AreaField));
  }

  /** Sending the payload as JSON keeps every add-on as ticked or unticked as it was. */
  lemma SentFlagAlike(form: Object, x: AddOn)
    ensures Enabled(SentBody(form), x) == Enabled(form, x)
  {
    JsonRoundTripPreservesReads(SubmitPayload(form), FieldOf(x));
    assert FieldOf(x) != AreaField;
    assert Get(SubmitPayload(form), FieldOf(x)) == Get(form, FieldOf(x));
  }

  /** The preview equals the authoritative estimate: for every form, the
      endpoint stores, and on success returns, exactly the figure the form showed. */
  lemma PreviewMatchesServer(form: Object, env: Env, insert: Option<Submit.StoreError>)
    ensures Submit.Handle(Submit.Request("POST", Some(SentBody(form))), env, insert).inserted.value[EstimateField]
      == Number(Fin(PreviewEstimate(form, env) as real))
    ensures insert.None? ==>
      Submit.Handle(Submit.Request("POST", Some(SentBody(form))), env, insert).response.estimate
      == Some(PreviewEstimate(form, env))
  {
    var body := SentBody(form);
    var req := Submit.Request("POST", Some(body));
    SentAreaClampsAlike(form);
    forall x: AddOn
      ensures Enabled(body, x) == Enabled(form, x)
    {
      SentFlagAlike(form, x);
    }
    EstimateCongruent(Get(body, AreaField), Get(form, AreaField), body, form, ResolveRates(env));
    Submit.OfferedEstimate(req, env, insert);
    if insert.None? {
      Submit.AcceptedReply(req, env);
    }
  }

  /** The name input is `required`: the browser submits only when the
      input's value, `form.client_name || ""`, is not empty. */
  predicate NameFilled(form: Object) {
    Truthy(Get(form, NameField))
  }

  /** The name is required only by the browser: the form as first shown
      cannot be submitted, a filled-in name reaches the endpoint unchanged,
      and the endpoint itself stores a lead without one. */
  lemma NameRequiredOnlyInBrowser(form: Object, env: Env)
    ensures !NameFilled(InitialForm)
    ensures NameFilled(form) ==> Get(SentBody(form), NameField) == Get(form, NameField)
    ensures Submit.Handle(Submit.Request("POST", Some(map[])), env, None).response.ok
  {
    InitialNameBlank();
    NameSentUnchanged(form);
    EmptyBodyAccepted(env);
  }

  lemma InitialNameBlank()
    ensures !NameFilled(InitialForm)
  {
    assert Get(InitialForm, NameField) == Str("");
  }

  /** The endpoint accepts a POST whose body has no fields at all. */
  lemma EmptyBodyAccepted(env: Env)
    ensures Submit.Handle(Submit.Request("POST", Some(map[])), env, None).response.ok
  {
    Submit.AcceptedReply(Submit.Request("POST", Some(map[])), env);
  }

  /** A truthy name reaches the endpoint as it was typed. */
  lemma NameSentUnchanged(form: Object)
    ensures NameFilled(form) ==> Get(SentBody(form), NameField) == Get(form, NameField)
  {
    JsonRoundTripPreservesReads(SubmitPayload(form), NameField);
    assert NameField != AreaField;
    assert Get(SubmitPayload(form), NameField) == Get(form, NameField);
  }

  /** What the endpoint's reply looks like to the form: the parsed JSON, or
      the message of the error `fetch` or `res.json()` threw. */
  datatype Reply = Delivered(response: Submit.Response) | Broken(message: string)

  /** The message the form shows after submitting. */
  datatype Notice = Sent(amount: int) | Failed(message: string)

  /** The text every failure message starts with. */
  const ErrorPrefix := "發生錯誤："

  /** The error shown when a failed reply carries none (`out?.error || "提交失敗"`). */
  const FallbackError := "提交失敗"

  /** The form's state and message after a reply; `preview` is the live estimate. */
  function AfterReply(form: Object, preview: int, reply: Reply): (r: (Object, Notice))
    ensures r.1.Sent? <==> reply.Delivered? && reply.response.ok
    ensures r.1.Sent? ==> r.0 == InitialForm
    ensures r.1.Failed? ==> r.0 == form
    ensures r.1.Sent? ==> r.1.amount == (if reply.response.estimate.Some? && reply.response.estimate.value != 0
                                         then reply.response.estimate.value else preview)
    ensures reply.Broken? ==> r.1 == Failed(ErrorPrefix + reply.message)
    ensures reply.Delivered? && !reply.response.ok ==>
      r.1 == Failed(ErrorPrefix + (if reply.response.error.Some? && reply.response.error.value != ""
                                   then reply.response.error.value else FallbackError))
  {
    match reply
    case Delivered(out) =>
      if out.ok then
        var shown := if out.estimate.Some? && out.estimate.value != 0 then out.estimate.value else preview;
        (InitialForm, Sent(shown))
      else
        var message := if out.error.Some? && out.error.value != "" then out.error.value else FallbackError;
        (form, Failed(ErrorPrefix + message))
    case Broken(message) =>
      (form, Failed(ErrorPrefix + message))
  }

  /** A successful submission, end to end: the form is reset to its initial
      state and the amount shown is the preview the user saw. */
  lemma SuccessfulSubmission(form: Object, env: Env)
    ensures var out := Submit.Handle(Submit.Request("POST", Some(SentBody(form))), env, None).response;
      AfterReply(form, PreviewEstimate(form, env), Delivered(out))
      == (InitialForm, Sent(PreviewEstimate(form, env)))
  {
    PreviewMatchesServer(form, env, None);
  }

  const DemoPasswordVariable := "NEXT_PUBLIC_DEMO_PWD"

  /** `process.env.NEXT_PUBLIC_DEMO_PWD || "demo123"`. */
  function UnlockPassword(env: Env): (pwd: string)
    ensures DemoPasswordVariable in env && env[DemoPasswordVariable] != "" ==> pwd == env[DemoPasswordVariable]
    ensures !(DemoPasswordVariable in env && env[DemoPasswordVariable] != "") ==> pwd == "demo123"
  {
    var v := EnvValue(env, DemoPasswordVariable);
    if Truthy(v) then v.s else "demo123"
  }

  /** The unlock button: the form opens iff the typed password is the demo password. */
  function Unlocks(typed: string, env: Env): bool {
    typed == UnlockPassword(env)
  }

  /** With no demo password configured exactly "demo123" unlocks the form. */
  lemma DefaultDemoPassword(typed: string)
    ensures Unlocks(typed, map[]) <==> typed == "demo123"
  {
  }
}

=== FILE: js.dfy ===
/** The slice of JavaScript value semantics the pages rely on: loosely typed
    values, truthiness, `Number(x)`, `x || d` on numbers, `Math.round`,
    `Math.max`/`Math.min`, and what a JSON round trip does to an object. */
module Js {
  import opened Text

  datatype Option<+T> = None | Some(value: T)

  /** A JavaScript number: `NaN` or a finite value (infinities are not modelled). */
  datatype Num = NaN | Fin(val: real)

  /** A JavaScript value as it appears in request bodies, form state and stored rows. */
  datatype Value = Undefined | Null | Bool(b: bool) | Number(n: Num) | Str(s: string)

  /** A plain object: its own enumerable properties. */
  type Object = map<string, Value>

  /** `process.env`: the variables that are set, each holding a string. */
  type Env = map<string, string>

  /** `process.env.NAME`: a string, or `undefined` when the variable is not set. */
  function EnvValue(env: Env, name: string): (v: Value)
    ensures v.Undefined? || v.Str?
  {
    if name in env then Str(env[name]) else Undefined
  }

  /** Property read `o.key`; a missing property reads as `undefined`. */
  function Get(o: Object, key: string): (v: Value)
    ensures key in o ==> v == o[key]
    ensures key !in o ==> v == Undefined
  {
    if key in o then o[key] else Undefined
  }

  predicate NumTruthy(n: Num) {
    n.Fin? && n.val != 0.0
  }

  /** JavaScript truthiness: `undefined`, `null`, `false`, `NaN`, `0` and `""` are falsy. */
  predicate Truthy(v: Value) {
    match v
    case Undefined => false
    case Null => false
    case Bool(b) => b
    case Number(n) => NumTruthy(n)
    case Str(s) => s != []
  }

  /** Position of the first '.' in `s`, or `|s|` when there is none. */
  function IndexOfDot(s: string): (i: nat)
    ensures i <= |s|
    ensures i < |s| ==> s[i] == '.'
    ensures forall j :: 0 <= j < i ==> s[j] != '.'
  {
    if s == [] || s[0] == '.' then 0 else 1 + IndexOfDot(s[1..])
  }

  /** An unsigned decimal literal: digits, optionally a '.' and more digits,
      with at least one digit in all. */
  function ParseUnsigned(u: string): (n: Num)
    ensures n.Fin? ==> n.val >= 0.0
  {
    var i := IndexOfDot(u);
    var whole := u[..i];
    var frac := if i < |u| then u[i + 1..] else [];
    if AllDigits(whole) && AllDigits(frac) && |whole| + |frac| > 0 then
      var w := DigitsValue(whole) as real;
      var q := DigitsValue(frac) as real / Pow10(|frac|) as real;
      assert q >= 0.0 by { RatioNonNegative(DigitsValue(frac), Pow10(|frac|)); }
      Fin(w + q)
    else
      NaN
  }

  /** A natural number over a positive one is non-negative. */
  lemma RatioNonNegative(a: nat, b: nat)
    requires b >= 1
    ensures a as real / b as real >= 0.0
  {
  }

  function Negate(n: Num): Num {
    if n.Fin? then Fin(-n.val) else NaN
  }

  /** `Number(s)` for a string: surrounding whitespace is ignored, the empty
      string is 0, a signed decimal literal is its value, anything else NaN. */
  function ParseNumber(s: string): Num {
    var t := Trim(s);
    if t == [] then Fin(0.0)
    else if t[0] == '-' then Negate(ParseUnsigned(t[1..]))
    else if t[0] == '+' then ParseUnsigned(t[1..])
    else ParseUnsigned(t)
  }

  /** `Number(v)`. */
  function ToNumber(v: Value): Num {
    match v
    case Undefined => NaN
    case Null => Fin(0.0)
    case Bool(b) => Fin(if b then 1.0 else 0.0)
    case Number(n) => n
    case Str(s) => ParseNumber(s)
  }

  /** `n || d` where `n` is a number and `d` a non-NaN fallback. */
  function NumberOr(n: Num, d: real): real {
    if NumTruthy(n) then n.val else d
  }

  /** `Math.round(x)`: the nearest integer, halves rounding up. */
  function Round(x: real): (r: int)
    ensures r as real - 0.5 <= x < r as real + 0.5
  {
    (x + 0.5).Floor
  }

  lemma {:induction false} RoundMonotone(x: real, y: real)
    requires x <= y
    ensures Round(x) <= Round(y)
  {
    assert Round(x) as real - 0.5 <= x;
    assert y < Round(y) as real + 0.5;
  }

  /** `Math.ceil(x)`. */
  function Ceil(x: real): (r: int)
    ensures x <= r as real < x + 1.0
  {
    -((-x).Floor)
  }

  /** `Math.max(a, b)`: NaN when either argument is NaN. */
  function Max(a: Num, b: Num): (r: Num)
    ensures r.NaN? <==> a.NaN? || b.NaN?
    ensures r.Fin? ==> r.val >= a.val && r.val >= b.val && (r == a || r == b)
  {
    if a.NaN? || b.NaN? then NaN else if a.val >= b.val then a else b
  }

  /** `Math.min(a, b)`: NaN when either argument is NaN. */
  function Min(a: Num, b: Num): (r: Num)
    ensures r.NaN? <==> a.NaN? || b.NaN?
    ensures r.Fin? ==> r.val <= a.val && r.val <= b.val && (r == a || r == b)
  {
    if a.NaN? || b.NaN? then NaN else if a.val <= b.val then a else b
  }

  /** What `JSON.parse(JSON.stringify(v))` yields for a property value that is kept. */
  function JsonValue(v: Value): Value {
    if v == Number(NaN) then Null else v
  }

  /** `JSON.parse(JSON.stringify(o))`: properties holding `undefined` are
      dropped and NaN becomes `null`. */
  function JsonRoundTrip(o: Object): (r: Object)
    ensures r.Keys == set k | k in o && o[k] != Undefined
    ensures forall k :: k in r && o[k] != Number(NaN) ==> r[k] == o[k]
    ensures forall k :: k in r ==> (r[k] == Null <==> o[k] == Null || o[k] == Number(NaN))
  {
    map k | k in o && o[k] != Undefined :: JsonValue(o[k])
  }

  /** What reading a property gives after a JSON round trip, from what it gave before. */
  function JsonRead(v: Value): Value {
    if v == Undefined then Undefined else JsonValue(v)
  }

  /** Reading one property of the round-tripped object. */
  lemma JsonGet(o: Object, key: string)
    ensures Get(JsonRoundTrip(o), key) == JsonRead(Get(o, key))
  {
  }

  /** A JSON round trip changes neither the truthiness of any property nor,
      where that property is truthy, its value. */
  lemma JsonRoundTripPreservesReads(o: Object, key: string)
    ensures Truthy(Get(JsonRoundTrip(o), key)) == Truthy(Get(o, key))
    ensures Truthy(Get(o, key)) ==> Get(JsonRoundTrip(o), key) == Get(o, key)
  {
  }

  /** `Number("")` and `Number` of a blank string are 0. */
  lemma ParseNumberBlank(s: string)
    requires forall i :: 0 <= i < |s| ==> IsSpace(s[i])
    ensures ParseNumber(s) == Fin(0.0)
  {
  }

  /** A plain string of digits parses to the integer it spells. */
  lemma ParseUnsignedDigits(u: string)
    requires u != [] && AllDigits(u)
    ensures ParseUnsigned(u) == Fin(DigitsValue(u) as real)
  {
    var i := IndexOfDot(u);
    assert i == |u| by {
      if i < |u| {
        assert false;
      }
    }
    assert u[..i] == u;
  }

  /** A leading '-' negates the number an unsigned literal spells, and a
      leading '+' changes nothing. */
  lemma ParseNumberSign(s: string)
    requires s != [] && (IsDigit(s[0]) || s[0] == '.') && !IsSpace(s[|s| - 1])
    ensures ParseNumber("-" + s) == Negate(ParseNumber(s))
    ensures ParseNumber("+" + s) == ParseNumber(s)
  {
    UnsignedLiteral(s);
    SignedLiteral('-', s);
    SignedLiteral('+', s);
  }

  /** An unsigned literal parses as itself. */
  lemma UnsignedLiteral(s: string)
    requires s != [] && (IsDigit(s[0]) || s[0] == '.') && !IsSpace(s[|s| - 1])
    ensures ParseNumber(s) == ParseUnsigned(s)
  {
    assert !IsSpace(s[0]);
    TrimOfUnspaced(s);
  }

  /** A signed literal parses as its sign applied to the unsigned rest. */
  lemma SignedLiteral(c: char, s: string)
    requires c == '-' || c == '+'
    requires s != [] && !IsSpace(s[|s| - 1])
    ensures ParseNumber([c] + s) == if c == '-' then Negate(ParseUnsigned(s)) else ParseUnsigned(s)
  {
    var t := [c] + s;
    assert t[0] == c && t[|t| - 1] == s[|s| - 1];
    assert t[1..] == s;
    TrimOfUnspaced(t);
  }

  /** A string that starts with anything but a sign, a digit, a '.' or
      whitespace is not a number, whatever whitespace follows it. */
  lemma ParseNumberNonNumeric(s: string)
    requires s != [] && !IsSpace(s[0])
    requires !IsDigit(s[0]) && s[0] !in "+-."
    ensures ParseNumber(s) == NaN
  {
    TrimIsInfix(s);
    var i, j :| SpaceOutside(s, i, j) && Trim(s) == s[i..j];
    assert i == 0;
    assert Trim(s) != [] by {
      assert !IsSpace(s[0]);
    }
    assert Trim(s)[0] == s[0];
    ParseUnsignedNonNumeric(Trim(s));
  }

  /** Unsigned text that starts with neither a digit nor '.' is not a number. */
  lemma ParseUnsignedNonNumeric(u: string)
    requires u != [] && !IsDigit(u[0]) && u[0] != '.'
    ensures ParseUnsigned(u) == NaN
  {
    var i := IndexOfDot(u);
    assert i > 0;
    assert u[..i][0] == u[0];
  }

  /** A string of digits parses to the integer it spells. */
  lemma ParseDigits(d: string)
    requires d != [] && AllDigits(d)
    ensures ParseNumber(d) == Fin(DigitsValue(d) as real)
  {
    NoSpaceInDigits(d);
    TrimOfUnspaced(d);
    assert IsDigit(d[0]);
    ParseUnsignedDigits(d);
  }

  /** A minus sign before a string of digits negates its value. */
  lemma ParseMinusDigits(d: string)
    requires d != [] && AllDigits(d)
    ensures ParseNumber("-" + d) == Fin(-(DigitsValue(d) as real))
  {
    var t := "-" + d;
    assert t[1..] == d;
    NoSpaceInDigits(d);
    assert t[|t| - 1] == d[|d| - 1];
    TrimOfUnspaced(t);
    ParseUnsignedDigits(d);
  }

  /** `Number(String(n))` gives back the integer `n`. */
  lemma ParseNumberOfInt(n: int)
    ensures ParseNumber(IntToString(n)) == Fin(n as real)
  {
    if n < 0 {
      var k: nat := -n;
      var d := NatToString(k);
      assert IntToString(n) == "-" + d;
      NatToStringValue(k);
      ParseMinusDigits(d);
      assert -(k as real) == n as real;
    } else {
      var d := NatToString(n);
      assert IntToString(n) == d;
      NatToStringValue(n);
      ParseDigits(d);
    }
  }

  lemma NoSpaceInDigits(d: string)
    requires AllDigits(d)
    ensures forall i :: 0 <= i < |d| ==> !IsSpace(d[i])
  {
  }

  lemma TrimOfUnspaced(s: string)
    requires s != [] && !IsSpace(s[0]) && !IsSpace(s[|s| - 1])
    ensures Trim(s) == s
  {
  }
}

=== FILE: lead.dfy ===
/** The lead record's field names and the one coercion both the intake form
    and the submission endpoint apply to the submitted area. */
module Lead {
  import opened Js

  /** The five optional add-ons a quote request can tick. */
  datatype AddOn = Carpentry | SystemFurniture | Electrical | Painting | Flooring

  const AddOns: seq<AddOn> := [Carpentry, SystemFurniture, Electrical, Painting, Flooring]

  /** The boolean property of a lead that enables an add-on. */
  function FieldOf(a: AddOn): string {
    match a
    case Carpentry => "add_carpentry"
    case SystemFurniture => "add_system_furniture"
    case Electrical => "add_electrical"
    case Painting => "add_painting"
    case Flooring => "add_flooring"
  }

  const NameField := "client_name"
  const AreaField := "area_ping"
  const EstimateField := "quote_estimate"

  /** `x ? Number(x) : undefined`, applied to the area before it leaves the
      form and again when the endpoint receives it. */
  function CoerceArea(v: Value): (r: Value)
    ensures r.Undefined? || r.Number?
  {
    if Truthy(v) then Number(ToNumber(v)) else Undefined
  }

  /** `{ ...o, area_ping: CoerceArea(o.area_ping) }`: the spread copies every
      property and the later `area_ping` key wins. */
  function WithCoercedArea(o: Object): (r: Object)
    ensures r.Keys == o.Keys + {AreaField}
    ensures forall k :: k in o && k != AreaField ==> r[k] == o[k]
    ensures r[AreaField] == CoerceArea(Get(o, AreaField))
  {
    o[AreaField := CoerceArea(Get(o, AreaField))]
  }

  /** Coercing twice is not coercing once: a non-numeric area becomes NaN the
      first time and, NaN being falsy, `undefined` the second. */
  lemma CoerceTwiceDiffers()
    ensures CoerceArea(Str("abc")) == Number(NaN)
    ensures CoerceArea(CoerceArea(Str("abc"))) == Undefined
  {
    ParseNumberNonNumeric("abc");
  }
}

=== FILE: pricing.dfy ===
/** The quote estimate: a base price plus a per-ping rate, plus one per-ping
    surcharge for each ticked add-on, rounded to a whole currency unit. The
    same rate table and the same formula are used by the live preview in the
    form and by the submission endpoint. */
module Pricing {
  import opened Js
  import opened Lead

  /** The seven rates of the price table. */
  datatype Rates = Rates(
    base: real,
    perPing: real,
    carpentry: real,
    system: real,
    electrical: real,
    painting: real,
    flooring: real)

  /** The built-in rates, used when no override is configured. */
  const DefaultRates := Rates(80000.0, 20000.0, 6000.0, 8000.0, 3000.0, 1500.0, 3500.0)

  /** The per-ping surcharge of one add-on. */
  function RateOf(p: Rates, a: AddOn): real {
    match a
    case Carpentry => p.carpentry
    case SystemFurniture => p.system
    case Electrical => p.electrical
    case Painting => p.painting
    case Flooring => p.flooring
  }

  predicate NonZero(p: Rates) {
    p.base != 0.0 && p.perPing != 0.0 && forall a: AddOn :: RateOf(p, a) != 0.0
  }

  /** No add-on lowers the price. */
  predicate AddOnRatesNonNegative(p: Rates) {
    forall a: AddOn :: RateOf(p, a) >= 0.0
  }

  predicate NonNegative(p: Rates) {
    p.base >= 0.0 && p.perPing >= 0.0 && AddOnRatesNonNegative(p)
  }

  /** `Number(setting) || fallback` for one rate. */
  function ResolveRate(setting: Value, fallback: real): (r: real)
    requires fallback != 0.0
    ensures r != 0.0
    ensures NumTruthy(ToNumber(setting)) ==> r == ToNumber(setting).val
    ensures !NumTruthy(ToNumber(setting)) ==> r == fallback
  {
    NumberOr(ToNumber(setting), fallback)
  }

  /** The environment variables that override the rates, in table order. */
  const RateVariables: seq<string> := [
    "NEXT_PUBLIC_QUOTE_BASE_PRICE",
    "NEXT_PUBLIC_QUOTE_PRICE_PER_PING",
    "NEXT_PUBLIC_QUOTE_CARPENTRY_PER_PING",
    "NEXT_PUBLIC_QUOTE_SYSTEM_PER_PING",
    "NEXT_PUBLIC_QUOTE_ELECTRICAL_PER_PING",
    "NEXT_PUBLIC_QUOTE_PAINTING_PER_PING",
    "NEXT_PUBLIC_QUOTE_FLOORING_PER_PING"
  ]

  /** The rate table `P`, read once from the environment: each rate comes
      from its own variable, with its own built-in default. No resolved rate
      is ever zero: a zero override falls back to the default. */
  function ResolveRates(env: Env): (p: Rates)
    ensures NonZero(p)
    ensures p.base == ResolveRate(EnvValue(env, "NEXT_PUBLIC_QUOTE_BASE_PRICE"), 80000.0)
    ensures p.perPing == ResolveRate(EnvValue(env, "NEXT_PUBLIC_QUOTE_PRICE_PER_PING"), 20000.0)
    ensures p.carpentry == ResolveRate(EnvValue(env, "NEXT_PUBLIC_QUOTE_CARPENTRY_PER_PING"), 6000.0)
    ensures p.system == ResolveRate(EnvValue(env, "NEXT_PUBLIC_QUOTE_SYSTEM_PER_PING"), 8000.0)
    ensures p.electrical == ResolveRate(EnvValue(env, "NEXT_PUBLIC_QUOTE_ELECTRICAL_PER_PING"), 3000.0)
    ensures p.painting == ResolveRate(EnvValue(env, "NEXT_PUBLIC_QUOTE_PAINTING_PER_PING"), 1500.0)
    ensures p.flooring == ResolveRate(EnvValue(env, "NEXT_PUBLIC_QUOTE_FLOORING_PER_PING"), 3500.0)
  {
    Rates(
      ResolveRate(EnvValue(env, RateVariables[0]), DefaultRates.base),
      ResolveRate(EnvValue(env, RateVariables[1]), DefaultRates.perPing),
      ResolveRate(EnvValue(env, RateVariables[2]), DefaultRates.carpentry),
      ResolveRate(EnvValue(env, RateVariables[3]), DefaultRates.system),
      ResolveRate(EnvValue(env, RateVariables[4]), DefaultRates.electrical),
      ResolveRate(EnvValue(env, RateVariables[5]), DefaultRates.painting),
      ResolveRate(EnvValue(env, RateVariables[6]), DefaultRates.flooring))
  }

  /** An override that is absent, empty, zero or not a number leaves the default in place. */
  predicate Ineffective(env: Env, name: string) {
    !NumTruthy(ToNumber(EnvValue(env, name)))
  }

  /** With no effective override the table is exactly the built-in one. */
  lemma UnsetRatesAreDefaults(env: Env)
    requires forall i :: 0 <= i < |RateVariables| ==> Ineffective(env, RateVariables[i])
    ensures ResolveRates(env) == DefaultRates
  {
    assert Ineffective(env, RateVariables[0]);
    assert Ineffective(env, RateVariables[1]);
    assert Ineffective(env, RateVariables[2]);
    assert Ineffective(env, RateVariables[3]);
    assert Ineffective(env, RateVariables[4]);
    assert Ineffective(env, RateVariables[5]);
    assert Ineffective(env, RateVariables[6]);
  }

  /** Coercing the area, once in the form and once more at the endpoint, never
      changes the area that is priced, although it may change the value. */
  lemma CoercionKeepsClamp(v: Value)
    ensures ClampArea(CoerceArea(v)) == ClampArea(v)
    ensures ClampArea(CoerceArea(CoerceArea(v))) == ClampArea(v)
  {
  }

  /** Absent, blank, all-zero and non-numeric overrides are all ineffective. */
  lemma IneffectiveOverrides(s: string, fallback: real)
    requires fallback != 0.0
    ensures ResolveRate(Undefined, fallback) == fallback
    ensures (forall i :: 0 <= i < |s| ==> Text.IsSpace(s[i])) ==> ResolveRate(Str(s), fallback) == fallback
    ensures s != [] && Text.AllDigits(s) && Text.DigitsValue(s) == 0 ==> ResolveRate(Str(s), fallback) == fallback
    ensures s != [] && !Text.IsSpace(s[0]) && !Text.IsDigit(s[0]) && s[0] !in "+-." ==>
      ResolveRate(Str(s), fallback) == fallback
    ensures ResolveRate(Str("0"), fallback) == fallback
  {
    BlankOverride(s, fallback);
    ZeroOverride(s, fallback);
    WordOverride(s, fallback);
    ZeroDigits();
    ZeroOverride("0", fallback);
  }

  lemma BlankOverride(s: string, fallback: real)
    requires fallback != 0.0
    ensures (forall i :: 0 <= i < |s| ==> Text.IsSpace(s[i])) ==> ResolveRate(Str(s), fallback) == fallback
  {
    if forall i :: 0 <= i < |s| ==> Text.IsSpace(s[i]) {
      ParseNumberBlank(s);
    }
  }

  lemma ZeroOverride(s: string, fallback: real)
    requires fallback != 0.0
    ensures s != [] && Text.AllDigits(s) && Text.DigitsValue(s) == 0 ==> ResolveRate(Str(s), fallback) == fallback
  {
    if s != [] && Text.AllDigits(s) && Text.DigitsValue(s) == 0 {
      ParseDigits(s);
    }
  }

  lemma WordOverride(s: string, fallback: real)
    requires fallback != 0.0
    ensures s != [] && !Text.IsSpace(s[0]) && !Text.IsDigit(s[0]) && s[0] !in "+-." ==>
      ResolveRate(Str(s), fallback) == fallback
  {
    if s != [] && !Text.IsSpace(s[0]) && !Text.IsDigit(s[0]) && s[0] !in "+-." {
      ParseNumberNonNumeric(s);
    }
  }

  /** "0" is a string of digits spelling zero. */
  lemma ZeroDigits()
    ensures Text.AllDigits("0") && Text.DigitsValue("0") == 0
  {
    assert "0"[..0] == "";
  }

  /** The decimal text of a non-zero integer replaces the default. */
  lemma EffectiveOverride(n: int, fallback: real)
    requires n != 0 && fallback != 0.0
    ensures ResolveRate(Str(Text.IntToString(n)), fallback) == n as real
  {
    ParseNumberOfInt(n);
  }

  /** `Math.max(0, Number(area) || 0)`: the area used for pricing. */
  function ClampArea(area: Value): (a: real)
    ensures a >= 0.0
    ensures ToNumber(area).Fin? && ToNumber(area).val > 0.0 ==> a == ToNumber(area).val
    ensures !(ToNumber(area).Fin? && ToNumber(area).val > 0.0) ==> a == 0.0
  {
    Max(Fin(0.0), Fin(NumberOr(ToNumber(area), 0.0))).val
  }

  predicate Enabled(f: Object, a: AddOn) {
    Truthy(Get(f, FieldOf(a)))
  }

  /** One `if (flag) t += area * rate` step of the running total. */
  function AddIf(t: real, on: bool, area: real, rate: real): real {
    if on then t + area * rate else t
  }

  /** `calcEstimate(area, f)`: clamp the area, then price it add-on by
      add-on; the result is the closed-form quote of the clamped area,
      rounded. */
  function Estimate(area: Value, f: Object, p: Rates): (r: int)
    ensures r == Round(Quote(ClampArea(area), f, p))
  {
    TotalIsQuote(ClampArea(area), f, p);
    Round(Total(ClampArea(area), f, p))
  }

  /** The running total `t` of `calcEstimate`, add-on by add-on, before rounding. */
  function Total(a: real, f: Object, p: Rates): real {
    RunningTotal(a, p, Enabled(f, Carpentry), Enabled(f, SystemFurniture), Enabled(f, Electrical),
                 Enabled(f, Painting), Enabled(f, Flooring))
  }

  /** The running total for the given ticked flags, in the order the source adds them. */
  function RunningTotal(a: real, p: Rates, carpentry: bool, system: bool, electrical: bool,
                        painting: bool, flooring: bool): real {
    var t0 := p.base + a * p.perPing;
    var t1 := AddIf(t0, carpentry, a, p.carpentry);
    var t2 := AddIf(t1, system, a, p.system);
    var t3 := AddIf(t2, electrical, a, p.electrical);
    var t4 := AddIf(t3, painting, a, p.painting);
    AddIf(t4, flooring, a, p.flooring)
  }

  /** The rate a ticked add-on contributes, 0 when it is not ticked. */
  function Pick(on: bool, rate: real): real {
    if on then rate else 0.0
  }

  /** The rate an add-on contributes to the per-ping price of `f`. */
  function Contribution(f: Object, p: Rates, a: AddOn): real {
    Pick(Enabled(f, a), RateOf(p, a))
  }

  /** The estimate depends only on the clamped area and on which add-ons are ticked. */
  lemma EstimateCongruent(area1: Value, area2: Value, f: Object, g: Object, p: Rates)
    requires ClampArea(area1) == ClampArea(area2)
    requires forall x: AddOn :: Enabled(f, x) == Enabled(g, x)
    ensures Estimate(area1, f, p) == Estimate(area2, g, p)
  {
    assert Enabled(f, Carpentry) == Enabled(g, Carpentry);
    assert Enabled(f, SystemFurniture) == Enabled(g, SystemFurniture);
    assert Enabled(f, Electrical) == Enabled(g, Electrical);
    assert Enabled(f, Painting) == Enabled(g, Painting);
    assert Enabled(f, Flooring) == Enabled(g, Flooring);
  }

  /** The summed per-ping surcharge of the add-ons in `xs` that are ticked in `f`. */
  function SurchargeOver(f: Object, p: Rates, xs: seq<AddOn>): real
    decreases |xs|
  {
    if xs == [] then 0.0 else Contribution(f, p, xs[0]) + SurchargeOver(f, p, xs[1..])
  }

  /** The summed per-ping surcharge of the add-ons ticked in `f`. */
  function SurchargeRate(f: Object, p: Rates): real {
    SurchargeOver(f, p, AddOns)
  }

  /** The price per ping of `f`: the per-ping rate plus the ticked surcharges. */
  function UnitPrice(f: Object, p: Rates): real {
    p.perPing + SurchargeRate(f, p)
  }

  /** The unrounded quote: base + area * price per ping. */
  function Quote(area: real, f: Object, p: Rates): real {
    p.base + area * UnitPrice(f, p)
  }

  /** One accumulation step adds the area times the picked rate. */
  lemma AddStep(t: real, on: bool, a: real, rate: real)
    ensures AddIf(t, on, a, rate) == t + a * Pick(on, rate)
  {
  }

  /** Multiplication by the area distributes over the five contributions. */
  lemma DistributeArea(a: real, r: real, c1: real, c2: real, c3: real, c4: real, c5: real)
    ensures a * (r + (c1 + c2 + c3 + c4 + c5)) == a * r + a * c1 + a * c2 + a * c3 + a * c4 + a * c5
  {
    calc {
      a * (r + (c1 + c2 + c3 + c4 + c5));
      a * r + a * (c1 + c2 + c3 + c4 + c5);
      a * r + a * (c1 + c2 + c3 + c4) + a * c5;
      a * r + a * (c1 + c2 + c3) + a * c4 + a * c5;
      a * r + a * (c1 + c2) + a * c3 + a * c4 + a * c5;
    }
  }

  /** Five steps that each add the area times a rate add the area times the summed rate. */
  lemma Collect(t0: real, t1: real, t2: real, t3: real, t4: real, t5: real,
                base: real, a: real, r: real, k1: real, k2: real, k3: real, k4: real, k5: real, s: real)
    requires t0 == base + a * r
    requires t1 == t0 + a * k1 && t2 == t1 + a * k2 && t3 == t2 + a * k3
    requires t4 == t3 + a * k4 && t5 == t4 + a * k5
    requires s == r + (k1 + k2 + k3 + k4 + k5)
    ensures t5 == base + a * s
  {
    DistributeArea(a, r, k1, k2, k3, k4, k5);
  }

  /** The running total as the nested additions of the five steps. */
  lemma RunningTotalSteps(a: real, p: Rates, e1: bool, e2: bool, e3: bool, e4: bool, e5: bool)
    ensures RunningTotal(a, p, e1, e2, e3, e4, e5)
      == AddIf(AddIf(AddIf(AddIf(AddIf(p.base + a * p.perPing, e1, a, p.carpentry), e2, a, p.system),
                                 e3, a, p.electrical), e4, a, p.painting), e5, a, p.flooring)
  {
  }

  /** The running total is the base plus the area times the per-ping rate and the picked surcharges. */
  lemma RunningTotalFactored(a: real, p: Rates, e1: bool, e2: bool, e3: bool, e4: bool, e5: bool, s: real)
    requires s == p.perPing + (Pick(e1, p.carpentry) + Pick(e2, p.system) + Pick(e3, p.electrical)
                               + Pick(e4, p.painting) + Pick(e5, p.flooring))
    ensures RunningTotal(a, p, e1, e2, e3, e4, e5) == p.base + a * s
  {
    RunningTotalSteps(a, p, e1, e2, e3, e4, e5);
    var t0 := p.base + a * p.perPing;
    var t1 := AddIf(t0, e1, a, p.carpentry);
    var t2 := AddIf(t1, e2, a, p.system);
    var t3 := AddIf(t2, e3, a, p.electrical);
    var t4 := AddIf(t3, e4, a, p.painting);
    var t5 := AddIf(t4, e5, a, p.flooring);
    AddStep(t0, e1, a, p.carpentry);
    AddStep(t1, e2, a, p.system);
    AddStep(t2, e3, a, p.electrical);
    AddStep(t3, e4, a, p.painting);
    AddStep(t4, e5, a, p.flooring);
    Collect(t0, t1, t2, t3, t4, t5, p.base, a, p.perPing, Pick(e1, p.carpentry), Pick(e2, p.system),
            Pick(e3, p.electrical), Pick(e4, p.painting), Pick(e5, p.flooring), s);
  }

  /** The total of `f` is the running total for its five flags. */
  lemma TotalOfFlags(a: real, f: Object, p: Rates)
    ensures Total(a, f, p) == RunningTotal(a, p, Enabled(f, Carpentry), Enabled(f, SystemFurniture),
                                           Enabled(f, Electrical), Enabled(f, Painting), Enabled(f, Flooring))
  {
  }

  /** The surcharge of `f` picks each add-on's rate by its flag. */
  lemma SurchargeOfFlags(f: Object, p: Rates)
    ensures SurchargeRate(f, p)
      == Pick(Enabled(f, Carpentry), p.carpentry) + Pick(Enabled(f, SystemFurniture), p.system)
         + Pick(Enabled(f, Electrical), p.electrical) + Pick(Enabled(f, Painting), p.painting)
         + Pick(Enabled(f, Flooring), p.flooring)
  {
    var xs := AddOns;
    assert xs[1..] == [SystemFurniture, Electrical, Painting, Flooring];
    assert xs[1..][1..] == [Electrical, Painting, Flooring];
    assert xs[1..][1..][1..] == [Painting, Flooring];
    assert xs[1..][1..][1..][1..] == [Flooring];
    assert xs[1..][1..][1..][1..][1..] == [];
    assert SurchargeOver(f, p, [Flooring]) == Contribution(f, p, Flooring);
    assert SurchargeOver(f, p, [Painting, Flooring]) == Contribution(f, p, Painting) + Contribution(f, p, Flooring);
    assert SurchargeOver(f, p, [Electrical, Painting, Flooring])
      == Contribution(f, p, Electrical) + SurchargeOver(f, p, [Painting, Flooring]);
    assert SurchargeOver(f, p, [SystemFurniture, Electrical, Painting, Flooring])
      == Contribution(f, p, SystemFurniture) + SurchargeOver(f, p, [Electrical, Painting, Flooring]);
  }

  lemma QuoteOf(a: real, f: Object, p: Rates)
    ensures Quote(a, f, p) == p.base + a * UnitPrice(f, p)
    ensures UnitPrice(f, p) == p.perPing + SurchargeRate(f, p)
  {
  }

  /** The running total, add-on by add-on, equals the factored quote. */
  lemma TotalIsQuote(a: real, f: Object, p: Rates)
    ensures Total(a, f, p) == Quote(a, f, p)
  {
    TotalOfFlags(a, f, p);
    SurchargeOfFlags(f, p);
    QuoteOf(a, f, p);
    RunningTotalFactored(a, p, Enabled(f, Carpentry), Enabled(f, SystemFurniture), Enabled(f, Electrical),
                         Enabled(f, Painting), Enabled(f, Flooring), UnitPrice(f, p));
  }

  /** An area that is absent, NaN, zero or negative prices like area 0:
      the rounded base price, whatever add-ons are ticked. */
  lemma NonPositiveAreaPricesBase(area: Value, f: Object, p: Rates)
    requires !(ToNumber(area).Fin? && ToNumber(area).val > 0.0)
    ensures Estimate(area, f, p) == Round(p.base)
    ensures Estimate(area, f, p) == Estimate(Number(Fin(0.0)), map[], p)
  {
    TotalAtZero(f, p);
    TotalAtZero(map[], p);
    assert ClampArea(area) == 0.0 && ClampArea(Number(Fin(0.0))) == 0.0;
  }

  /** At area 0 the running total is the base price. */
  lemma TotalAtZero(f: Object, p: Rates)
    ensures Total(0.0, f, p) == p.base
  {
  }

  /** The two worked examples with the built-in rates. */
  lemma DefaultRateExamples()
    ensures Estimate(Number(Fin(10.0)), map[], DefaultRates) == 280000
    ensures Estimate(Number(Fin(5.0)),
                     map[FieldOf(Carpentry) := Bool(true), FieldOf(Painting) := Bool(true)],
                     DefaultRates) == 217500
  {
    PlainTenPings();
    CarpentryPaintingFivePings();
  }

  lemma PlainTenPings()
    ensures Estimate(Number(Fin(10.0)), map[], DefaultRates) == 280000
  {
    assert ClampArea(Number(Fin(10.0))) == 10.0;
    assert SurchargeRate(map[], DefaultRates) == 0.0;
  }

  lemma CarpentryPaintingFivePings()
    ensures Estimate(Number(Fin(5.0)),
                     map[FieldOf(Carpentry) := Bool(true), FieldOf(Painting) := Bool(true)],
                     DefaultRates) == 217500
  {
    var f := map[FieldOf(Carpentry) := Bool(true), FieldOf(Painting) := Bool(true)];
    assert ClampArea(Number(Fin(5.0))) == 5.0;
    assert SurchargeRate(f, DefaultRates) == 7500.0;
  }

  /** With non-negative add-on rates the surcharge per ping is non-negative. */
  lemma SurchargeRateNonNegative(f: Object, p: Rates)
    requires AddOnRatesNonNegative(p)
    ensures SurchargeRate(f, p) >= 0.0
  {
    SurchargeOverNonNegative(f, p, AddOns);
  }

  lemma {:induction false} SurchargeOverNonNegative(f: Object, p: Rates, xs: seq<AddOn>)
    requires AddOnRatesNonNegative(p)
    ensures SurchargeOver(f, p, xs) >= 0.0
    decreases |xs|
  {
    if xs != [] {
      assert RateOf(p, xs[0]) >= 0.0;
      SurchargeOverNonNegative(f, p, xs[1..]);
    }
  }

  /** A larger area never lowers `base + area * rate` when the rate is non-negative. */
  lemma AreaMonotone(base: real, a1: real, a2: real, r: real)
    requires a1 <= a2 && r >= 0.0
    ensures base + a1 * r <= base + a2 * r
  {
  }

  /** A larger rate never lowers `base + area * rate` when the area is non-negative. */
  lemma RateMonotone(base: real, a: real, r1: real, r2: real)
    requires a >= 0.0 && r1 <= r2
    ensures base + a * r1 <= base + a * r2
  {
  }

  lemma QuoteMonotoneInArea(a1: real, a2: real, f: Object, p: Rates)
    requires a1 <= a2 && UnitPrice(f, p) >= 0.0
    ensures Quote(a1, f, p) <= Quote(a2, f, p)
  {
    QuoteOf(a1, f, p);
    QuoteOf(a2, f, p);
    AreaMonotone(p.base, a1, a2, UnitPrice(f, p));
  }

  lemma QuoteMonotoneInRate(a: real, f: Object, g: Object, p: Rates)
    requires a >= 0.0 && UnitPrice(f, p) <= UnitPrice(g, p)
    ensures Quote(a, f, p) <= Quote(a, g, p)
  {
    var u, v := UnitPrice(f, p), UnitPrice(g, p);
    QuoteOf(a, f, p);
    QuoteOf(a, g, p);
    RateMonotone(p.base, a, u, v);
  }

  /** With non-negative rates the unrounded quote of a non-negative area is non-negative. */
  lemma QuoteNonNegative(a: real, f: Object, p: Rates)
    requires a >= 0.0 && NonNegative(p)
    ensures Quote(a, f, p) >= 0.0
  {
    SurchargeRateNonNegative(f, p);
    QuoteOf(a, f, p);
    QuoteOf(0.0, f, p);
    AreaMonotone(p.base, 0.0, a, UnitPrice(f, p));
  }

  /** With non-negative rates the estimate is never negative. */
  lemma EstimateNonNegative(area: Value, f: Object, p: Rates)
    requires NonNegative(p)
    ensures Estimate(area, f, p) >= 0
  {
    QuoteNonNegative(ClampArea(area), f, p);
    RoundMonotone(0.0, Quote(ClampArea(area), f, p));
  }

  /** With non-negative per-ping and add-on rates a larger area never gives a
      smaller estimate, whatever the base price. */
  lemma EstimateMonotoneInArea(area1: Value, area2: Value, f: Object, p: Rates)
    requires p.perPing >= 0.0 && AddOnRatesNonNegative(p)
    requires ClampArea(area1) <= ClampArea(area2)
    ensures Estimate(area1, f, p) <= Estimate(area2, f, p)
  {
    SurchargeRateNonNegative(f, p);
    QuoteMonotoneInArea(ClampArea(area1), ClampArea(area2), f, p);
    RoundMonotone(Quote(ClampArea(area1), f, p), Quote(ClampArea(area2), f, p));
  }

  /** With non-negative add-on rates, ticking more add-ons never lowers the surcharge per ping. */
  lemma SurchargeRateMonotone(f: Object, g: Object, p: Rates)
    requires AddOnRatesNonNegative(p)
    requires forall a: AddOn :: Enabled(f, a) ==> Enabled(g, a)
    ensures SurchargeRate(f, p) <= SurchargeRate(g, p)
  {
    SurchargeOverMonotone(f, g, p, AddOns);
  }

  lemma {:induction false} SurchargeOverMonotone(f: Object, g: Object, p: Rates, xs: seq<AddOn>)
    requires AddOnRatesNonNegative(p)
    requires forall a: AddOn :: Enabled(f, a) ==> Enabled(g, a)
    ensures SurchargeOver(f, p, xs) <= SurchargeOver(g, p, xs)
    decreases |xs|
  {
    if xs != [] {
      assert RateOf(p, xs[0]) >= 0.0;
      assert Contribution(f, p, xs[0]) <= Contribution(g, p, xs[0]);
      SurchargeOverMonotone(f, g, p, xs[1..]);
    }
  }

  /** With non-negative add-on rates, ticking more add-ons never lowers the
      estimate, whatever the base and per-ping rates. */
  lemma EstimateMonotoneInAddOns(area: Value, f: Object, g: Object, p: Rates)
    requires AddOnRatesNonNegative(p)
    requires forall a: AddOn :: Enabled(f, a) ==> Enabled(g, a)
    ensures Estimate(area, f, p) <= Estimate(area, g, p)
  {
    SurchargeRateMonotone(f, g, p);
    assert UnitPrice(f, p) <= UnitPrice(g, p);
    QuoteMonotoneInRate(ClampArea(area), f, g, p);
    RoundMonotone(Quote(ClampArea(area), f, p), Quote(ClampArea(area), g, p));
  }
}

=== FILE: records.dfy ===
/** The admin records page: the cookie check that guards it, the page of
    leads it asks the store for, the search box that narrows the page, and
    the pager links. The store is not modelled: its answers to the count and
    to the range read are parameters. */
module Records {
  import opened Text
  import opened Js

  /** One stored lead as the page reads it back; `area` is the text
      `String(area_ping)` renders. */
  datatype LeadRow = LeadRow(
    createdAt: string,
    clientName: Option<string>,
    phone: Option<string>,
    email: Option<string>,
    area: Option<string>,
    category: Option<string>,
    source: Option<string>,
    notes: Option<string>,
    budgetRange: Option<string>,
    carpentry: Option<bool>,
    systemFurniture: Option<bool>,
    electrical: Option<bool>,
    painting: Option<bool>,
    flooring: Option<bool>,
    quoteEstimate: Option<int>)

  const AdminSecretVariable := "RECORDS_ADMIN_PWD"
  const CookieName := "admin_pwd"
  const LoginRedirect := "/?need_admin=1"
  const PageSize := 20

  // ---------------------------------------------------------------- gate

  /** `ctx.req.cookies?.admin_pwd`: the decoded cookie value, or `undefined`. */
  function CookieValue(cookies: map<string, string>): (v: Value)
    ensures v.Undefined? || v.Str?
  {
    if CookieName in cookies then Str(cookies[CookieName]) else Undefined
  }

  /** The page is shown iff `cookiePwd === process.env.RECORDS_ADMIN_PWD`:
      for a matching cookie, and also for a missing cookie when no secret is
      configured, since `undefined === undefined`. */
  function Admitted(cookies: map<string, string>, env: Env): (ok: bool)
    ensures ok <==>
      (CookieName !in cookies && AdminSecretVariable !in env)
      || (CookieName in cookies && AdminSecretVariable in env
          && cookies[CookieName] == env[AdminSecretVariable])
  {
    CookieValue(cookies) == EnvValue(env, AdminSecretVariable)
  }

  // ---------------------------------------------------------------- paging

  /** `Number(ctx.query.page || 1)`, where a missing parameter is `undefined`. */
  function RequestedPage(query: Option<string>): (n: Num)
    ensures query.None? || query == Some("") ==> n == Fin(1.0)
  {
    var q := if query.Some? then Str(query.value) else Undefined;
    ToNumber(if Truthy(q) then q else Number(Fin(1.0)))
  }

  /** A page number written in decimal is read back as that number. */
  lemma RequestedPageOfInt(p: int)
    ensures RequestedPage(Some(IntToString(p))) == Fin(p as real)
  {
    ParseNumberOfInt(p);
  }

  /** `from = (page - 1) * pageSize`. */
  function RangeFrom(page: Num): Num {
    if page.Fin? then Fin((page.val - 1.0) * PageSize as real) else NaN
  }

  /** `to = from + pageSize - 1`. */
  function RangeTo(page: Num): Num {
    var from := RangeFrom(page);
    if from.Fin? then Fin(from.val + PageSize as real - 1.0) else NaN
  }

  /** The range is inclusive and spans one page; page 1 starts at row 0,
      and each page starts right after the previous one ends. */
  lemma RangeArithmetic(page: real)
    ensures RangeTo(Fin(page)).val - RangeFrom(Fin(page)).val + 1.0 == PageSize as real
    ensures RangeFrom(Fin(1.0)) == Fin(0.0)
    ensures RangeFrom(Fin(page + 1.0)).val == RangeTo(Fin(page)).val + 1.0
  {
  }

  /** A non-number page asks for a NaN range. */
  lemma NaNPageRange()
    ensures RangeFrom(NaN) == NaN && RangeTo(NaN) == NaN
  {
  }

  /** The rows `.range(from, to)` selects from a table in the store's order:
      indices `from` through `to`, cut off at the end of the table. */
  function Window(table: seq<LeadRow>, from: int, to: int): (r: seq<LeadRow>)
    requires 0 <= from
    ensures |r| <= PageSize || to - from + 1 > PageSize
    ensures forall i :: 0 <= i < |r| ==> from + i < |table| && r[i] == table[from + i]
    ensures |r| == if from <= to && from < |table| then Min0(to + 1, |table|) - from else 0
  {
    if from <= to && from < |table| then table[from..Min0(to + 1, |table|)] else []
  }

  function Min0(a: int, b: int): int {
    if a <= b then a else b
  }

  /** The rows of page `p` of a table when the store answers the range read faithfully. */
  function PageRows(table: seq<LeadRow>, p: int): seq<LeadRow>
    requires p >= 1
  {
    Window(table, (p - 1) * PageSize, (p - 1) * PageSize + PageSize - 1)
  }

  /** Pages 1 through `n`, one after the other. */
  function FirstPages(table: seq<LeadRow>, n: nat): seq<LeadRow> {
    if n == 0 then [] else FirstPages(table, n - 1) + PageRows(table, n)
  }

  /** The pages tile the table: pages 1 to `n` are exactly its first
      `20 * n` rows, with nothing skipped and nothing repeated. */
  lemma {:induction false} PagesTileTable(table: seq<LeadRow>, n: nat)
    ensures FirstPages(table, n) == table[..Min0(PageSize * n, |table|)]
  {
    if n > 0 {
      PagesTileTable(table, n - 1);
      PageIsSlice(table, n);
      PrefixJoin(table, Min0(PageSize * (n - 1), |table|), Min0(PageSize * n, |table|));
    }
  }

  /** Page `n` is the slice between the ends of pages `n - 1` and `n`. */
  lemma PageIsSlice(table: seq<LeadRow>, n: nat)
    requires n >= 1
    ensures PageRows(table, n) == table[Min0(PageSize * (n - 1), |table|)..Min0(PageSize * n, |table|)]
  {
    var a := Min0(PageSize * (n - 1), |table|);
    var b := Min0(PageSize * n, |table|);
    var w := PageRows(table, n);
    assert |w| == b - a;
    assert w == table[a..b];
  }

  lemma PrefixJoin<T>(s: seq<T>, a: nat, b: nat)
    requires a <= b <= |s|
    ensures s[..a] + s[a..b] == s[..b]
  {
    assert s[..b] == s[..a] + s[a..b];
  }

  /** `Math.max(1, Math.ceil(total / pageSize))`. */
  function TotalPages(total: int): (r: int)
    ensures r >= 1
    ensures r * PageSize >= total
    ensures r == 1 || (r - 1) * PageSize < total
  {
    var c := Ceil(total as real / PageSize as real);
    if c >= 1 then c else 1
  }

  /** Every row of a table lies on one of its `TotalPages` pages. */
  lemma PagesCoverTable(table: seq<LeadRow>)
    ensures FirstPages(table, TotalPages(|table|)) == table
  {
    PagesTileTable(table, TotalPages(|table|));
  }

  /** A page past the last one is empty. */
  lemma PagePastLastIsEmpty(table: seq<LeadRow>, p: int)
    requires p > TotalPages(|table|)
    ensures PageRows(table, p) == []
  {
  }

  /** The worked example: 45 leads make 3 pages, the last holding 5. */
  lemma FortyFiveRows(table: seq<LeadRow>)
    requires |table| == 45
    ensures TotalPages(|table|) == 3
    ensures |PageRows(table, 1)| == 20 && |PageRows(table, 2)| == 20 && |PageRows(table, 3)| == 5
    ensures PageRows(table, 3) == table[40..]
  {
  }

  // ---------------------------------------------------------------- props

  /** The store's answer to the range read: an error, or the data (which may be `null`). */
  datatype ReadReply = ReadError | Data(rows: Option<seq<LeadRow>>)

  /** What `getServerSideProps` returns: a redirect, or the page's props. */
  datatype PageProps =
    | Redirect(destination: string)
    | Props(rows: seq<LeadRow>, total: int, page: Num, pageSize: int)

  /** `getServerSideProps`: `count` is the store's exact count (`None` for
      `null`) and `read` its answer to `.range(from, to)` for the requested page. */
  function ServerSideProps(cookies: map<string, string>, query: Option<string>, env: Env,
                           count: Option<int>, read: ReadReply): (r: PageProps)
    ensures r.Redirect? <==> !Admitted(cookies, env)
    ensures r.Redirect? ==> r.destination == LoginRedirect
    ensures r.Props? ==> r.pageSize == PageSize
    ensures r.Props? && read.ReadError? ==> r.rows == [] && r.total == 0 && r.page == Fin(1.0)
    ensures r.Props? && read.Data? ==> r.page == RequestedPage(query)
    ensures r.Props? && read.Data? ==>
      r.rows == (if read.rows.Some? then read.rows.value else [])
      && r.total == (if count.Some? then count.value else 0)
  {
    if !Admitted(cookies, env) then Redirect(LoginRedirect)
    else
      match read
      case ReadError => Props([], 0, Fin(1.0), PageSize)
      case Data(data) =>
        Props(if data.Some? then data.value else [],
              if count.Some? then count.value else 0,
              RequestedPage(query), PageSize)
  }

  /** With a faithful store, an admitted request for `?page=p` is shown
      page `p` of the table and the table's size. */
  lemma FaithfulStorePage(cookies: map<string, string>, env: Env, table: seq<LeadRow>, p: int)
    requires Admitted(cookies, env) && p >= 1
    ensures RangeFrom(RequestedPage(Some(IntToString(p)))) == Fin(((p - 1) * PageSize) as real)
    ensures RangeTo(RequestedPage(Some(IntToString(p)))) == Fin(((p - 1) * PageSize + PageSize - 1) as real)
    ensures ServerSideProps(cookies, Some(IntToString(p)), env, Some(|table|), Data(Some(PageRows(table, p))))
      == Props(PageRows(table, p), |table|, Fin(p as real), PageSize)
  {
    RequestedPageOfInt(p);
    RangeOfPage(p);
  }

  /** The range of an integer page. */
  lemma RangeOfPage(p: int)
    ensures RangeFrom(Fin(p as real)) == Fin(((p - 1) * PageSize) as real)
    ensures RangeTo(Fin(p as real)) == Fin(((p - 1) * PageSize + PageSize - 1) as real)
  {
  }

  // ---------------------------------------------------------------- pager

  /** `Math.max(1, page - 1)`, the target of the previous-page link. */
  function PrevPage(page: Num): (r: Num)
    ensures r.NaN? <==> page.NaN?
    ensures r.Fin? ==> r.val >= 1.0
  {
    Max(Fin(1.0), if page.Fin? then Fin(page.val - 1.0) else NaN)
  }

  /** `Math.min(totalPages, page + 1)`, the target of the next-page link. */
  function NextPage(page: Num, totalPages: int): (r: Num)
    ensures r.NaN? <==> page.NaN?
    ensures r.Fin? ==> r.val <= totalPages as real
  {
    Min(Fin(totalPages as real), if page.Fin? then Fin(page.val + 1.0) else NaN)
  }

  /** From any page in range both links lead to a page in range, one step
      away unless the current page is the first or the last. */
  lemma PagerStaysInRange(p: int, totalPages: int)
    requires 1 <= p <= totalPages
    ensures PrevPage(Fin(p as real)) == Fin((if p > 1 then p - 1 else 1) as real)
    ensures NextPage(Fin(p as real), totalPages) == Fin((if p < totalPages then p + 1 else totalPages) as real)
  {
  }

  // ---------------------------------------------------------------- search

  /** `f?.toLowerCase().includes(k)`: a missing field never matches. */
  predicate FieldMatches(f: Option<string>, k: string) {
    f.Some? && Contains(ToLower(f.value), k)
  }

  /** A row matches when its name, phone, email, category or source does. */
  predicate Matches(r: LeadRow, k: string) {
    || FieldMatches(r.clientName, k)
    || FieldMatches(r.phone, k)
    || FieldMatches(r.email, k)
    || FieldMatches(r.category, k)
    || FieldMatches(r.source, k)
  }

  /** `rows.filter(r => Matches(r, k))`. */
  function Keep(rows: seq<LeadRow>, k: string): (r: seq<LeadRow>)
    ensures Subsequence(r, rows)
    ensures forall i :: 0 <= i < |r| ==> Matches(r[i], k)
    ensures forall x :: multiset(r)[x] == if Matches(x, k) then multiset(rows)[x] else 0
  {
    if rows == [] then []
    else
      var rest := Keep(rows[1..], k);
      assert rows == [rows[0]] + rows[1..];
      if Matches(rows[0], k) then
        assert ([rows[0]] + rest)[1..] == rest;
        [rows[0]] + rest
      else
        assert rest == [] || Subsequence(rest, rows[1..]);
        rest
  }

  /** The search box: `q.trim().toLowerCase()`; a blank query keeps every row. */
  function Search(rows: seq<LeadRow>, q: string): (r: seq<LeadRow>)
    ensures Trim(q) == [] ==> r == rows
    ensures Trim(q) != [] ==> r == Keep(rows, ToLower(Trim(q)))
  {
    var k := ToLower(Trim(q));
    if k == [] then rows else Keep(rows, k)
  }

  /** A row is shown after a non-blank search iff one of its five searchable
      fields contains the query, and the shown rows keep their order. */
  lemma SearchKeepsExactlyMatches(rows: seq<LeadRow>, q: string, x: LeadRow)
    requires Trim(q) != []
    ensures Subsequence(Search(rows, q), rows)
    ensures x in Search(rows, q) <==> x in rows && Matches(x, ToLower(Trim(q)))
  {
    var r := Search(rows, q);
    assert x in r <==> multiset(r)[x] > 0;
    assert x in rows <==> multiset(rows)[x] > 0;
  }
}

=== FILE: submit.dfy ===
/** The submission endpoint: accepts a POSTed lead, recomputes the estimate
    on the server, hands the row to the store and reports the outcome. The
    store is not modelled: the handler takes the store's answer to the insert
    as a parameter and returns the row it offered. */
module Submit {
  import opened Js
  import opened Lead
  import opened Pricing

  /** A request: its method and its parsed body, `None` when `req.body` is falsy. */
  datatype Request = Request(verb: string, body: Option<Object>)

  /** The store's error for a failed insert; `message` is `None` when the error carries none. */
  datatype StoreError = StoreError(message: Option<string>)

  /** The JSON reply `{ ok, estimate?, error? }` and its HTTP status. */
  datatype Response = Response(status: int, ok: bool, estimate: Option<int>, error: Option<string>)

  /** What one call of the handler does: the reply, and the row offered to the store. */
  datatype Outcome = Outcome(response: Response, inserted: Option<Object>)

  const MethodNotAllowed := Response(405, false, None, Some("Method not allowed"))

  /** `req.body || {}`. */
  function BodyOf(req: Request): Object {
    if req.body.Some? then req.body.value else map[]
  }

  /** `calcEstimate(Number(payload.area_ping) || 0, payload)`. */
  function ServerEstimate(payload: Object, p: Rates): int {
    Estimate(Number(Fin(NumberOr(ToNumber(Get(payload, AreaField)), 0.0))), payload, p)
  }

  /** `{ ...payload, quote_estimate: estimate }`: the later key wins. */
  function StoredRow(payload: Object, estimate: int): Object {
    payload[EstimateField := Number(Fin(estimate as real))]
  }

  /** `err?.message ?? "Server error"`. */
  function ErrorMessage(err: StoreError): string {
    if err.message.Some? then err.message.value else "Server error"
  }

  /** The row the store should receive for `body`: every property copied
      except the area, which is coerced, and the estimate, which is what the
      pricing formula gives for the body's own area and add-ons. */
  predicate IsStoredRow(body: Object, row: Object, p: Rates) {
    && row.Keys == body.Keys + {AreaField, EstimateField}
    && (forall k :: k in body && k != AreaField && k != EstimateField ==> row[k] == body[k])
    && row[AreaField] == CoerceArea(Get(body, AreaField))
    && row[EstimateField] == Number(Fin(Estimate(Get(body, AreaField), body, p) as real))
  }

  /** The area the server prices is the one `calcEstimate` would derive from
      the raw body: coercing, re-reading and `|| 0` change nothing. */
  lemma ServerEstimateMatchesBody(body: Object, p: Rates)
    ensures ServerEstimate(WithCoercedArea(body), p) == Estimate(Get(body, AreaField), body, p)
  {
    var payload := WithCoercedArea(body);
    var v := Get(body, AreaField);
    var a := Number(Fin(NumberOr(ToNumber(Get(payload, AreaField)), 0.0)));
    CoercedAreaClamps(v);
    CoercedFlags(body);
    EstimateCongruent(a, v, payload, body, p);
  }

  /** Coercing an area and reading it back with `|| 0` leaves its clamp unchanged. */
  lemma CoercedAreaClamps(v: Value)
    ensures ClampArea(Number(Fin(NumberOr(ToNumber(CoerceArea(v)), 0.0)))) == ClampArea(v)
  {
  }

  /** Coercing the area leaves every add-on flag as it was. */
  lemma CoercedFlags(body: Object)
    ensures forall x: AddOn :: Enabled(WithCoercedArea(body), x) == Enabled(body, x)
  {
    forall x: AddOn
      ensures Enabled(WithCoercedArea(body), x) == Enabled(body, x)
    {
      assert FieldOf(x) != AreaField;
    }
  }

  /** `handler(req, res)` of the submission endpoint. */
  function Handle(req: Request, env: Env, insert: Option<StoreError>): (o: Outcome)
    ensures req.verb != "POST" ==> o == Outcome(MethodNotAllowed, None)
    ensures req.verb == "POST" ==> o.inserted.Some? && IsStoredRow(BodyOf(req), o.inserted.value, ResolveRates(env))
    ensures o.response.ok <==> o.response.status == 200
    ensures o.response.ok <==> req.verb == "POST" && insert.None?
    ensures o.response.ok ==>
      (o.response.estimate.Some? && o.inserted.value[EstimateField] == Number(Fin(o.response.estimate.value as real)))
    ensures o.response.ok ==> o.response.error.None?
    ensures req.verb == "POST" && insert.Some? ==>
      o.response == Response(500, false, None, Some(ErrorMessage(insert.value)))
  {
    if req.verb != "POST" then
      Outcome(MethodNotAllowed, None)
    else
      var body := BodyOf(req);
      var payload := WithCoercedArea(body);
      var estimate := ServerEstimate(payload, ResolveRates(env));
      ServerEstimateMatchesBody(body, ResolveRates(env));
      var row := StoredRow(payload, estimate);
      match insert
      case None => Outcome(Response(200, true, Some(estimate), None), Some(row))
      case Some(err) => Outcome(Response(500, false, None, Some(ErrorMessage(err))), Some(row))
  }

  /** A `quote_estimate` sent by the client has no effect: two bodies that
      differ only there lead to the same row and the same reply. */
  lemma ClientEstimateIgnored(req1: Request, req2: Request, env: Env, insert: Option<StoreError>)
    requires req1.verb == req2.verb
    requires BodyOf(req1) - {EstimateField} == BodyOf(req2) - {EstimateField}
    ensures Handle(req1, env, insert) == Handle(req2, env, insert)
  {
    if req1.verb == "POST" {
      var b1, b2 := BodyOf(req1), BodyOf(req2);
      var p := ResolveRates(env);
      SameReadsOutside(b1, b2, EstimateField);
      forall x: AddOn
        ensures Enabled(b1, x) == Enabled(b2, x)
      {
        assert Get(b1, FieldOf(x)) == Get(b2, FieldOf(x));
      }
      EstimateCongruent(Get(b1, AreaField), Get(b2, AreaField), b1, b2, p);
      ServerEstimateMatchesBody(b1, p);
      ServerEstimateMatchesBody(b2, p);
      var o1, o2 := Handle(req1, env, insert), Handle(req2, env, insert);
      StoredRowsAgree(b1, b2, o1.inserted.value, o2.inserted.value, p);
    }
  }

  /** The stored row does not depend on the body's own `quote_estimate`. */
  lemma StoredRowsAgree(b1: Object, b2: Object, r1: Object, r2: Object, p: Rates)
    requires b1 - {EstimateField} == b2 - {EstimateField}
    requires IsStoredRow(b1, r1, p) && IsStoredRow(b2, r2, p)
    ensures r1 == r2
  {
    SameReadsOutside(b1, b2, EstimateField);
    EstimateIgnoresOwnEstimate(b1, b2, p);
    KeysAgreeOutside(b1, b2, EstimateField);
    forall k | k in r1
      ensures k in r2 && r1[k] == r2[k]
    {
      StoredValue(b1, r1, p, k);
      StoredValue(b2, r2, p, k);
    }
    MapsAgree(r1, r2);
  }

  /** What a stored row holds under each of its keys. */
  lemma StoredValue(body: Object, row: Object, p: Rates, k: string)
    requires IsStoredRow(body, row, p) && k in row
    ensures k == AreaField ==> row[k] == CoerceArea(Get(body, AreaField))
    ensures k == EstimateField ==> row[k] == Number(Fin(Estimate(Get(body, AreaField), body, p) as real))
    ensures k != AreaField && k != EstimateField ==> k in body && row[k] == Get(body, k)
  {
  }

  lemma MapsAgree<K, V>(m1: map<K, V>, m2: map<K, V>)
    requires forall k | k in m1 :: k in m2 && m1[k] == m2[k]
    requires m2.Keys <= m1.Keys
    ensures m1 == m2
  {
  }

  /** The estimate of a body does not depend on its own `quote_estimate`. */
  lemma EstimateIgnoresOwnEstimate(b1: Object, b2: Object, p: Rates)
    requires b1 - {EstimateField} == b2 - {EstimateField}
    ensures Estimate(Get(b1, AreaField), b1, p) == Estimate(Get(b2, AreaField), b2, p)
  {
    SameReadsOutside(b1, b2, EstimateField);
    forall x: AddOn
      ensures Enabled(b1, x) == Enabled(b2, x)
    {
      assert Get(b1, FieldOf(x)) == Get(b2, FieldOf(x));
    }
    EstimateCongruent(Get(b1, AreaField), Get(b2, AreaField), b1, b2, p);
  }

  /** Two objects that agree outside `key` have the same keys besides it. */
  lemma KeysAgreeOutside(b1: Object, b2: Object, key: string)
    requires b1 - {key} == b2 - {key}
    ensures b1.Keys + {key} == b2.Keys + {key}
  {
    assert b1.Keys + {key} == (b1 - {key}).Keys + {key};
    assert b2.Keys + {key} == (b2 - {key}).Keys + {key};
  }

  /** Two objects that agree outside `key` read the same everywhere else. */
  lemma SameReadsOutside(b1: Object, b2: Object, key: string)
    requires b1 - {key} == b2 - {key}
    ensures forall k :: k != key ==> Get(b1, k) == Get(b2, k)
  {
    forall k | k != key
      ensures Get(b1, k) == Get(b2, k)
    {
      assert k in b1 <==> k in b1 - {key};
      assert k in b2 <==> k in b2 - {key};
      if k in b1 {
        assert b1[k] == (b1 - {key})[k];
        assert b2[k] == (b2 - {key})[k];
      }
    }
  }

  /** Whatever the store answers, a POST offers it the estimate of the body as it was sent. */
  lemma OfferedEstimate(req: Request, env: Env, insert: Option<StoreError>)
    requires req.verb == "POST"
    ensures Handle(req, env, insert).inserted.Some?
    ensures Handle(req, env, insert).inserted.value[EstimateField]
      == Number(Fin(Estimate(Get(BodyOf(req), AreaField), BodyOf(req), ResolveRates(env)) as real))
  {
  }

  /** An accepted POST is answered with the estimate of the body as it was sent. */
  lemma AcceptedReply(req: Request, env: Env)
    requires req.verb == "POST"
    ensures Handle(req, env, None).response
      == Response(200, true, Some(Estimate(Get(BodyOf(req), AreaField), BodyOf(req), ResolveRates(env))), None)
  {
    ServerEstimateMatchesBody(BodyOf(req), ResolveRates(env));
  }

  /** `Number("10")` is 10. */
  lemma NumberOfTen()
    ensures ToNumber(Str("10")) == Fin(10.0)
  {
    TenDigits();
    ParseDigits("10");
  }

  /** "10" is a string of digits spelling ten. */
  lemma TenDigits()
    ensures Text.AllDigits("10") && Text.DigitsValue("10") == 10
  {
    assert "10"[..1] == "1";
  }

  /** With the built-in rates, a body with area "10" and no add-on ticked is priced at 280000. */
  lemma TenPingEstimate(body: Object)
    requires Get(body, AreaField) == Str("10")
    requires forall x: AddOn :: !Enabled(body, x)
    ensures Estimate(Get(body, AreaField), body, DefaultRates) == 280000
  {
    NumberOfTen();
    assert ClampArea(Str("10")) == ClampArea(Number(Fin(10.0))) == 10.0;
    DefaultRateExamples();
    EstimateCongruent(Str("10"), Number(Fin(10.0)), body, map[], DefaultRates);
  }

  /** Without overrides, an accepted POST of area "10" and no add-on is answered with 280000. */
  lemma TenPingReply(req: Request, env: Env)
    requires forall i :: 0 <= i < |RateVariables| ==> Ineffective(env, RateVariables[i])
    requires req.verb == "POST" && Get(BodyOf(req), AreaField) == Str("10")
    requires forall x: AddOn :: !Enabled(BodyOf(req), x)
    ensures Handle(req, env, None).response == Response(200, true, Some(280000), None)
  {
    AcceptedReply(req, env);
    UnsetRatesAreDefaults(env);
    TenPingEstimate(BodyOf(req));
  }

  /** The first worked example, end to end: a POST with area "10" and no
      add-ons is answered with 280000, whatever figure the client sent. */
  lemma SubmitExample(env: Env)
    requires forall i :: 0 <= i < |RateVariables| ==> Ineffective(env, RateVariables[i])
    ensures Handle(Request("POST", Some(map[AreaField := Str("10"), EstimateField := Number(Fin(1.0))])), env, None).response
      == Response(200, true, Some(280000), None)
  {
    var body: Object := map[AreaField := Str("10"), EstimateField := Number(Fin(1.0))];
    assert Get(body, AreaField) == Str("10");
    forall x: AddOn
      ensures !Enabled(body, x)
    {
      assert FieldOf(x) !in body;
    }
    TenPingReply(Request("POST", Some(body)), env);
  }
}

=== FILE: text.dfy ===
/** String helpers shared by the intake form, the listing page and the CSV
    export: JavaScript's `trim`, `toLowerCase`, `includes`, `join` and
    integer-to-decimal conversion, restricted to what those pages rely on. */
module Text {

  /** The whitespace `String.prototype.trim` removes, restricted to ASCII. */
  predicate IsSpace(c: char) {
    c == ' ' || c == '\t' || c == '\n' || c == '\r' || c == '\U{000B}' || c == '\U{000C}'
  }

  function TrimStart(s: string): (r: string)
    ensures |r| <= |s| && r == s[|s| - |r|..]
    ensures r == [] || !IsSpace(r[0])
    ensures forall i :: 0 <= i < |s| - |r| ==> IsSpace(s[i])
  {
    if s != [] && IsSpace(s[0]) then TrimStart(s[1..]) else s
  }

  function TrimEnd(s: string): (r: string)
    ensures |r| <= |s| && r == s[..|r|]
    ensures r == [] || !IsSpace(r[|r| - 1])
    ensures forall i :: |r| <= i < |s| ==> IsSpace(s[i])
  {
    if s != [] && IsSpace(s[|s| - 1]) then TrimEnd(s[..|s| - 1]) else s
  }

  /** Everything of `s` before index `i` and from index `j` on is whitespace. */
  predicate SpaceOutside(s: string, i: int, j: int) {
    0 <= i <= j <= |s|
    && (forall k :: 0 <= k < i ==> IsSpace(s[k]))
    && (forall k :: j <= k < |s| ==> IsSpace(s[k]))
  }

  /** `s.trim()`: the longest infix that neither starts nor ends with whitespace. */
  function Trim(s: string): (r: string)
    ensures r == [] || (!IsSpace(r[0]) && !IsSpace(r[|r| - 1]))
    ensures r == [] <==> forall i :: 0 <= i < |s| ==> IsSpace(s[i])
  {
    TrimEnd(TrimStart(s))
  }

  /** Trimming removes whitespace from the two ends of `s` and nothing else:
      the result is an infix of `s` with only whitespace before and after it. */
  lemma TrimIsInfix(s: string)
    ensures exists i, j :: SpaceOutside(s, i, j) && Trim(s) == s[i..j]
  {
    var t := TrimStart(s);
    var r := TrimEnd(t);
    assert Trim(s) == r;
    TrimBounds(s, t, r);
    var i := |s| - |t|;
    var j := i + |r|;
    assert SpaceOutside(s, i, j) && r == s[i..j];
  }

  /** A whitespace-led suffix `t` of `s`, cut before a whitespace tail to `r`,
      leaves `r` as an infix of `s` with only whitespace around it. */
  lemma TrimBounds(s: string, t: string, r: string)
    requires |t| <= |s| && t == s[|s| - |t|..]
    requires forall k :: 0 <= k < |s| - |t| ==> IsSpace(s[k])
    requires |r| <= |t| && r == t[..|r|]
    requires forall k :: |r| <= k < |t| ==> IsSpace(t[k])
    ensures SpaceOutside(s, |s| - |t|, |s| - |t| + |r|)
    ensures r == s[|s| - |t|..|s| - |t| + |r|]
  {
    var i := |s| - |t|;
    forall k | i + |r| <= k < |s|
      ensures IsSpace(s[k])
    {
      assert s[k] == t[k - i];
    }
  }

  function LowerChar(c: char): char {
    if 'A' <= c <= 'Z' then (c as int + 32) as char else c
  }

  /** `s.toLowerCase()`, restricted to ASCII letters. */
  function ToLower(s: string): (r: string)
    ensures |r| == |s|
    ensures forall i :: 0 <= i < |s| ==> r[i] == LowerChar(s[i])
  {
    if s == [] then [] else [LowerChar(s[0])] + ToLower(s[1..])
  }

  /** `s.includes(k)`: `k` occurs as a contiguous infix of `s`. */
  predicate Contains(s: string, k: string) {
    exists i :: 0 <= i <= |s| - |k| && OccursAt(s, k, i)
  }

  /** `k` occurs in `s` starting at index `i`. */
  predicate OccursAt(s: string, k: string, i: int) {
    0 <= i <= |s| - |k| && s[i..i + |k|] == k
  }

  /** `parts.join(sep)`; the empty array joins to the empty string. */
  function Join(parts: seq<string>, sep: string): string {
    if parts == [] then []
    else if |parts| == 1 then parts[0]
    else parts[0] + sep + Join(parts[1..], sep)
  }

  predicate IsDigit(c: char) {
    '0' <= c <= '9'
  }

  predicate AllDigits(s: string) {
    forall i :: 0 <= i < |s| ==> IsDigit(s[i])
  }

  function DigitChar(d: int): (c: char)
    requires 0 <= d < 10
    ensures IsDigit(c) && c as int - '0' as int == d
  {
    (d + '0' as int) as char
  }

  /** The number a string of decimal digits denotes (most significant first). */
  function DigitsValue(s: string): nat
    requires AllDigits(s)
  {
    if s == [] then 0 else DigitsValue(s[..|s| - 1]) * 10 + (s[|s| - 1] as int - '0' as int)
  }

  function Pow10(n: nat): (r: nat)
    ensures r >= 1
  {
    if n == 0 then 1 else 10 * Pow10(n - 1)
  }

  /** The decimal digits of `n`, without leading zeros. */
  function NatToString(n: nat): (r: string)
    ensures r != [] && AllDigits(r)
    ensures |r| > 1 ==> r[0] != '0'
    decreases n
  {
    if n < 10 then [DigitChar(n)] else NatToString(n / 10) + [DigitChar(n % 10)]
  }

  /** `String(n)` for an integer `n`. */
  function IntToString(n: int): string {
    if n < 0 then "-" + NatToString(-n) else NatToString(n)
  }

  lemma {:induction false} NatToStringValue(n: nat)
    ensures DigitsValue(NatToString(n)) == n
    decreases n
  {
    var r := NatToString(n);
    if n >= 10 {
      NatToStringValue(n / 10);
      assert r[..|r| - 1] == NatToString(n / 10);
    }
  }

  /** `a` is `b` with some elements left out, the rest kept in order. */
  predicate Subsequence<T(==)>(a: seq<T>, b: seq<T>)
    decreases |b|
  {
    if a == [] then true
    else if b == [] then false
    else (a[0] == b[0] && Subsequence(a[1..], b[1..])) || Subsequence(a, b[1..])
  }

  /** The part of `s` before the first `c`, all of `s` when there is none. */
  function Before(s: string, c: char): (r: string)
    ensures |r| <= |s| && r == s[..|r|]
    ensures c !in r
    ensures |r| < |s| ==> s[|r|] == c
  {
    if s == [] || s[0] == c then [] else [s[0]] + Before(s[1..], c)
  }

  /** The part of `s` after the first `c`, empty when there is none. */
  function After(s: string, c: char): (r: string)
    ensures |Before(s, c)| < |s| ==> r == s[|Before(s, c)| + 1..]
    ensures |Before(s, c)| == |s| ==> r == []
  {
    var i := |Before(s, c)|;
    if i < |s| then s[i + 1..] else []
  }

  /** Splitting at the first `c` of `a + [c] + b` gives back `a` and `b` when `a` holds no `c`. */
  lemma {:induction false} SplitAtFirst(a: string, c: char, b: string)
    requires c !in a
    ensures Before(a + [c] + b, c) == a
    ensures After(a + [c] + b, c) == b
  {
    var s := a + [c] + b;
    if a != [] {
      assert s[1..] == a[1..] + [c] + b;
      SplitAtFirst(a[1..], c, b);
      assert [a[0]] + a[1..] == a;
    }
    assert Before(s, c) == a;
    assert s[|a| + 1..] == b;
  }

  /** Joining a list that starts with `x`. */
  lemma JoinCons(x: string, ys: seq<string>, sep: string)
    ensures Join([x] + ys, sep) == if ys == [] then x else x + sep + Join(ys, sep)
  {
    assert ([x] + ys)[1..] == ys;
  }

  /** Joining a list that ends with `y`. */
  lemma {:induction false} JoinSnoc(xs: seq<string>, y: string, sep: string)
    requires xs != []
    ensures Join(xs + [y], sep) == Join(xs, sep) + sep + y
    decreases |xs|
  {
    if |xs| == 1 {
      assert (xs + [y])[1..] == [y];
    } else {
      assert (xs + [y])[1..] == xs[1..] + [y];
      JoinSnoc(xs[1..], y, sep);
    }
  }

  /** Concatenation is associative. */
  lemma ConcatAssoc<T>(a: seq<T>, b: seq<T>, c: seq<T>)
    ensures (a + b) + c == a + (b + c)
  {
  }

  /** A three-element prefix and what follows it. */
  lemma ThreeAhead<T>(head: seq<T>, rest: seq<T>)
    requires |head| == 3
    ensures (head + rest)[0] == head[0] && (head + rest)[1] == head[1] && (head + rest)[2] == head[2]
    ensures (head + rest)[3..] == rest
  {
  }
}

=== FILE: uri_component.dfy ===
/** `encodeURIComponent` and `decodeURIComponent`: every character outside
    the unreserved set becomes the UTF-8 bytes of its code point, each
    written `%XY` in upper-case hex; decoding reverses that and rejects
    malformed escapes, overlong forms and surrogate code points. */
module UriComponent {
  import opened Js

  /** The characters `encodeURIComponent` leaves as they are. */
  predicate Unreserved(c: char) {
    ('A' <= c <= 'Z') || ('a' <= c <= 'z') || ('0' <= c <= '9') || c in "-_.!~*'()"
  }

  predicate IsByte(b: int) {
    0 <= b < 256
  }

  predicate AllBytes(bs: seq<int>) {
    forall i :: 0 <= i < |bs| ==> IsByte(bs[i])
  }

  /** The UTF-8 encoding of a Unicode code point. */
  function Utf8(cp: int): (bs: seq<int>)
    requires 0 <= cp < 0x110000
    ensures 1 <= |bs| <= 4 && AllBytes(bs)
    ensures (|bs| == 1) == (cp < 0x80)
  {
    if cp < 0x80 then [cp]
    else if cp < 0x800 then [0xC0 + cp / 64, 0x80 + cp % 64]
    else if cp < 0x10000 then [0xE0 + cp / 64 / 64, 0x80 + cp / 64 % 64, 0x80 + cp % 64]
    else [0xF0 + cp / 64 / 64 / 64, 0x80 + cp / 64 / 64 % 64, 0x80 + cp / 64 % 64, 0x80 + cp % 64]
  }

  /** The number of bytes announced by a UTF-8 lead byte; 0 for a byte that cannot lead. */
  function SequenceLength(b: int): nat {
    if 0 <= b < 0x80 then 1
    else if 0xC0 <= b < 0xE0 then 2
    else if 0xE0 <= b < 0xF0 then 3
    else if 0xF0 <= b < 0xF8 then 4
    else 0
  }

  predicate IsContinuation(b: int) {
    0x80 <= b < 0xC0
  }

  predicate IsScalar(cp: int) {
    (0 <= cp < 0xD800) || (0xE000 <= cp < 0x110000)
  }

  /** The code point a complete UTF-8 sequence stands for, rejecting bad
      continuation bytes, overlong forms, surrogates and values past U+10FFFF. */
  function Utf8Decode(bs: seq<int>): (r: Option<int>)
    ensures r.Some? ==> IsScalar(r.value)
  {
    if |bs| == 1 then
      if 0 <= bs[0] < 0x80 then Some(bs[0]) else None
    else if |bs| == 2 && IsContinuation(bs[1]) then
      var cp := (bs[0] - 0xC0) * 64 + (bs[1] - 0x80);
      if 0x80 <= cp < 0x800 then Some(cp) else None
    else if |bs| == 3 && IsContinuation(bs[1]) && IsContinuation(bs[2]) then
      var cp := ((bs[0] - 0xE0) * 64 + (bs[1] - 0x80)) * 64 + (bs[2] - 0x80);
      if 0x800 <= cp < 0x10000 && IsScalar(cp) then Some(cp) else None
    else if |bs| == 4 && IsContinuation(bs[1]) && IsContinuation(bs[2]) && IsContinuation(bs[3]) then
      var cp := (((bs[0] - 0xF0) * 64 + (bs[1] - 0x80)) * 64 + (bs[2] - 0x80)) * 64 + (bs[3] - 0x80);
      if 0x10000 <= cp < 0x110000 then Some(cp) else None
    else
      None
  }

  function HexDigit(n: int): (c: char)
    requires 0 <= n < 16
    ensures Unreserved(c)
  {
    if n < 10 then (n + '0' as int) as char else (n - 10 + 'A' as int) as char
  }

  /** The value of a hex digit of either case. */
  function HexValue(c: char): Option<int> {
    if '0' <= c <= '9' then Some(c as int - '0' as int)
    else if 'A' <= c <= 'F' then Some(c as int - 'A' as int + 10)
    else if 'a' <= c <= 'f' then Some(c as int - 'a' as int + 10)
    else None
  }

  /** Each byte written as `%XY`. */
  function PercentEncode(bs: seq<int>): (r: string)
    requires AllBytes(bs)
    ensures |r| == 3 * |bs|
    ensures forall i :: 0 <= i < |r| ==> Unreserved(r[i]) || r[i] == '%'
  {
    if bs == [] then [] else ['%', HexDigit(bs[0] / 16), HexDigit(bs[0] % 16)] + PercentEncode(bs[1..])
  }

  function EncodeChar(c: char): (r: string)
    ensures forall i :: 0 <= i < |r| ==> Unreserved(r[i]) || r[i] == '%'
  {
    if Unreserved(c) then [c] else PercentEncode(Utf8(c as int))
  }

  /** `encodeURIComponent(s)`. */
  function Encode(s: string): (r: string)
    ensures forall i :: 0 <= i < |r| ==> Unreserved(r[i]) || r[i] == '%'
  {
    if s == [] then [] else EncodeChar(s[0]) + Encode(s[1..])
  }

  /** The `k` bytes written as `%XY` escapes at the start of `s`, if there are `k` of them. */
  function ReadBytes(s: string, k: nat): (r: Option<seq<int>>)
    ensures r.Some? ==> |r.value| == k && 3 * k <= |s|
  {
    if k == 0 then Some([])
    else if |s| >= 3 && s[0] == '%' && HexValue(s[1]).Some? && HexValue(s[2]).Some? then
      match ReadBytes(s[3..], k - 1)
      case None => None
      case Some(rest) => Some([HexValue(s[1]).value * 16 + HexValue(s[2]).value] + rest)
    else None
  }

  function Prepend(c: char, r: Option<string>): Option<string> {
    if r.Some? then Some([c] + r.value) else None
  }

  /** `decodeURIComponent(s)`, `None` where it throws `URIError`: text
      without a '%' comes back unchanged, and decoding never lengthens. */
  function Decode(s: string): (r: Option<string>)
    ensures '%' !in s ==> r == Some(s)
    ensures r.Some? ==> |r.value| <= |s|
    decreases |s|
  {
    if s == [] then Some([])
    else if s[0] != '%' then
      assert s == [s[0]] + s[1..];
      Prepend(s[0], Decode(s[1..]))
    else
      match ReadBytes(s, 1)
      case None => None
      case Some(lead) =>
        var n := SequenceLength(lead[0]);
        if n == 0 then None
        else
          match ReadBytes(s, n)
          case None => None
          case Some(bs) =>
            match Utf8Decode(bs)
            case None => None
            case Some(cp) => Prepend(cp as char, Decode(s[3 * n..]))
  }

  lemma HexRoundTrip(n: int)
    requires 0 <= n < 16
    ensures HexValue(HexDigit(n)) == Some(n)
  {
  }

  /** The two hex digits of a byte read back as that byte. */
  lemma EscapeValue(b: int)
    requires 0 <= b < 256
    ensures HexValue(HexDigit(b / 16)).Some? && HexValue(HexDigit(b % 16)).Some?
    ensures HexValue(HexDigit(b / 16)).value * 16 + HexValue(HexDigit(b % 16)).value == b
  {
    HexRoundTrip(b / 16);
    HexRoundTrip(b % 16);
  }

  /** An encoded sequence starts with the escape of its first byte. */
  lemma EncodedHead(bs: seq<int>, t: string)
    requires AllBytes(bs) && bs != []
    ensures var s := PercentEncode(bs) + t;
      |s| >= 3 && s[0] == '%' && s[1] == HexDigit(bs[0] / 16) && s[2] == HexDigit(bs[0] % 16)
      && s[3..] == PercentEncode(bs[1..]) + t
  {
    var head := ['%', HexDigit(bs[0] / 16), HexDigit(bs[0] % 16)];
    assert PercentEncode(bs) == head + PercentEncode(bs[1..]);
    Text.ConcatAssoc(head, PercentEncode(bs[1..]), t);
    Text.ThreeAhead(head, PercentEncode(bs[1..]) + t);
  }

  lemma {:induction false} ReadEncodedBytes(bs: seq<int>, t: string)
    requires AllBytes(bs)
    ensures ReadBytes(PercentEncode(bs) + t, |bs|) == Some(bs)
  {
    if bs != [] {
      var s := PercentEncode(bs) + t;
      EncodedHead(bs, t);
      EscapeValue(bs[0]);
      ReadEncodedBytes(bs[1..], t);
      ReadBytesStep(s, |bs|, bs[0], bs[1..]);
      assert [bs[0]] + bs[1..] == bs;
    }
  }

  /** One escape followed by `k - 1` readable bytes reads as `k` bytes. */
  lemma ReadBytesStep(s: string, k: nat, b: int, rest: seq<int>)
    requires k >= 1 && |s| >= 3 && s[0] == '%' && HexValue(s[1]).Some? && HexValue(s[2]).Some?
    requires HexValue(s[1]).value * 16 + HexValue(s[2]).value == b
    requires ReadBytes(s[3..], k - 1) == Some(rest)
    ensures ReadBytes(s, k) == Some([b] + rest)
  {
  }

  lemma Utf8RoundTrip(cp: int)
    requires IsScalar(cp)
    ensures SequenceLength(Utf8(cp)[0]) == |Utf8(cp)|
    ensures Utf8Decode(Utf8(cp)) == Some(cp)
  {
  }

  /** Reading one escape off an encoded sequence yields its first byte. */
  lemma ReadLeadByte(bs: seq<int>, t: string)
    requires AllBytes(bs) && bs != []
    ensures ReadBytes(PercentEncode(bs) + t, 1) == Some([bs[0]])
  {
    var s := PercentEncode(bs) + t;
    EncodedHead(bs, t);
    EscapeValue(bs[0]);
    assert ReadBytes(s[3..], 0) == Some([]);
    assert [bs[0]] + [] == [bs[0]];
  }

  /** A character outside the unreserved set decodes from its escapes. */
  lemma DecodeEscapedChar(c: char, t: string)
    requires !Unreserved(c)
    ensures Decode(PercentEncode(Utf8(c as int)) + t) == Prepend(c, Decode(t))
  {
    var bs := Utf8(c as int);
    var s := PercentEncode(bs) + t;
    Utf8RoundTrip(c as int);
    ReadLeadByte(bs, t);
    ReadEncodedBytes(bs, t);
    assert s[0] == '%';
    assert s[3 * |bs|..] == t;
    assert (c as int) as char == c;
  }

  /** Decoding the escape of one character yields that character and moves
      on to whatever follows. */
  lemma DecodeEncodedChar(c: char, t: string)
    ensures Decode(EncodeChar(c) + t) == Prepend(c, Decode(t))
  {
    if Unreserved(c) {
      var s := EncodeChar(c) + t;
      assert s[0] == c && s[1..] == t;
    } else {
      DecodeEscapedChar(c, t);
    }
  }

  /** `decodeURIComponent(encodeURIComponent(s)) === s` for every string. */
  lemma {:induction false} DecodeEncode(s: string)
    ensures Decode(Encode(s)) == Some(s)
  {
    if s != [] {
      DecodeEncode(s[1..]);
      DecodeEncodedChar(s[0], Encode(s[1..]));
      assert [s[0]] + s[1..] == s;
    }
  }
}
